=== FILE: README.md ===
# UDP file transfer: a Dafny model

This project models the protocol core of a small Go program that transfers one file over UDP.
- A requester sends GET with a file name.
- The server answers with DATA packets of at most 1024 bytes. It sends up to five packets at the start, stopping early when the file runs out, and sends one new packet per ACK while the file lasts. The window stays at five or fewer only while every ACK names an outstanding packet: an ACK for any other number still sends a packet and grows it (`Sender.AckInWindowKeepsBound`, `Sender.AckAbsentGrowsWindow`).
- The requester checks each payload's CRC-32. It answers ACK when the checksum matches and NAK when it does not.
- The server sends FIN once its window is empty after handling a datagram.
- On FIN the requester writes the payloads out in sequence order, stopping at the first missing one. If the file cannot be opened, the server answers with a single ERR packet.

Everything is pure functions over byte sequences and maps:

| module | models |
|---|---|
| `Bytes` | `byte`/`uint16`/`uint32`, `uint32` increment with wrap-around, big-endian fields |
| `Crc32` | CRC-32 with the IEEE polynomial (reflected, initial and final value `0xFFFFFFFF`) |
| `Packing` | the `protocol` package's codec `Pack`/`Unpack`, with the 11-byte header |
| `ServerPacking` | the server command's copy of the codec, proved equal to `Packing` |
| `Datagrams` | the 1500-byte receive buffers and the decode of `buf[:n]` after a read |
| `Chunks` | how a file is cut into 1024-byte payloads and how payloads are glued back together |
| `Sender` | `handleGet` (initial fill, ACK, NAK, FIN, ERR) and the serving loop's GET dispatch |
| `Receiver` | the body of `requestFile`'s receive loop and `assembleFile` |
| `Transfer` | what each side makes of the packets the other side builds |
| `Exchange` | a whole request over a lossless, in-order channel |

How the program's effects appear in the model:
- Every send is a returned list of packets.
- Every receive is an argument of a step function.
- The served file is a byte sequence read with `io.ReadFull` semantics.
- The output file is the returned byte sequence.

Receive buffers are state. Each receiving loop allocates one 1500-byte buffer and reads every datagram into it. A read overwrites only the front of the buffer, so the bytes behind a short datagram are the ones an earlier read left there (zero before the first read).
- The serving loop's buffer lives across all requests.
- Each `handleGet` session allocates a fresh buffer.
- Each `requestFile` call allocates a fresh buffer.

The model carries each buffer's contents (`Datagrams.Buffer`) from one read to the next.

`Unpack` is always called on `buf[:n]`, a slice whose length is the bytes read but whose capacity is the whole 1500-byte buffer. `Unpack` slices `packet[11 : 11+Length]` without comparing `Length` with the bytes received, and Go bounds that slice by the capacity.
- It panics exactly when 11 + Length exceeds 1500. The model makes the panic an explicit outcome (`SliceOutOfRange`), and each caller turns it into a crash.
- Otherwise the payload is the Length bytes behind the header (buffer bytes 11 .. 11 + Length). When the datagram is shorter than that, the payload runs on into stale bytes of the buffer (`Datagrams.Decode`, `Transfer.ShortGetNamesStaleBytes`, `Transfer.ShortDataIsPadded`).

A datagram shorter than a header makes `Unpack` return an error. The callers react differently:
- The serving loop checks the error and skips the datagram.
- `handleGet` and `requestFile` discard it and go on with the zero header, whose type 0 matches no case.

## Behaviour of the code worth knowing

- **Duplicate DATA.** The requester stores every valid copy of a payload, so a later copy replaces an earlier one (`Receiver.OnMessage`).
- **Declared length.** `Unpack` never compares the length field with the bytes received. A short datagram is padded from the receive buffer, and a length beyond the buffer panics (`Packing.Unpack`, `Transfer.LongRequestCrashesServer`).
- **Length field.** `Pack` writes `uint16(len(data))`, which wraps for payloads of 65536 bytes or more (`Packing.UnpackPackWraps`).
- **Retransmission.** There is no retransmission timer and no retry budget. The only resend answers a NAK (`Sender.OnNak`).
- **Empty file.** An empty file gets FIN only after the next datagram from the requester arrives. The requester has nothing to send, so the request stalls until its read deadline (`Sender.EmptyFileFinishesOnFirstDatagram`, `Exchange.EmptyFileStalls`).

## Model

| member | source | states |
|---|---|---|
| Bytes.Inc32 | cmd/server/main.go:92 | `nextSeq++` on a `uint32`: one more, except that 2^32-1 wraps to 0 |
| Bytes.Uint16BytesRoundTrip | protocol/packing.go:32 | writing back a big-endian 16-bit field read from a buffer reproduces its two bytes |
| Bytes.Uint32BytesRoundTrip | protocol/packing.go:31-34 | writing back a big-endian 32-bit field read from a buffer reproduces its four bytes |
| Bytes.Ascii | cmd/server/main.go:57 | `[]byte("...")` of an ASCII literal has one byte per character, each equal to the character's code |
| Packing.Pack | protocol/packing.go:26-40 | the packet is 11 + len(data) bytes: type at 0, seq big-endian at 1, len(data) mod 2^16 at 5, CRC-32 of the payload at 7, then the payload verbatim |
| Packing.Unpack | protocol/packing.go:42-57 | on a slice of length n whose capacity holds the given bytes: "too short" exactly when n < 11; a panic exactly when 11 + Length exceeds the capacity; otherwise the fields are read at offsets 0/1/5/7 and the payload is the Length bytes after the header, read up to the capacity and not only up to n |
| Packing.UnpackPack | protocol/packing.go:26-57 | round trip: for payloads under 65536 bytes, Unpack of a slice that holds exactly Pack(t, s, d) gives header (t, s, len d, crc d) and payload d, whatever lies beyond it in the backing array |
| Packing.UnpackPackWraps | protocol/packing.go:32 | for payloads of 65536 bytes or more, the length field holds len mod 65536, and Unpack returns only that many leading bytes, which differ from the data |
| Packing.UnpackReadsHeaderAndPayloadOnly | protocol/packing.go:42-57 | a successful Unpack depends only on the header and the Length bytes behind it: the slice length (once at least 11) and the bytes beyond 11 + Length never change the result |
| Packing.PackUnpack | protocol/packing.go:26-57 | converse round trip: a decodable packet with no trailing bytes and a correct checksum is re-encoded byte for byte by Pack |
| ServerPacking.Pack | cmd/server/packing.go:10-24 | the copy's packet layout: 11 + len(data) bytes, type, seq, wrapped length, CRC-32, then the payload |
| ServerPacking.Unpack | cmd/server/packing.go:26-41 | the copy rejects slices shorter than 11 bytes, panics exactly when 11 + Length exceeds the capacity, and otherwise returns the header read at offsets 0/1/5/7 and the Length bytes after it |
| ServerPacking.PackAgrees | cmd/server/packing.go:10-24 | the copy's Pack gives the same bytes as the protocol package's Pack on every input |
| ServerPacking.UnpackAgrees | cmd/server/packing.go:26-41 | the copy's Unpack gives the same outcome as the protocol package's Unpack on every input, including the error and the panic |
| ServerPacking.UnpackPack | cmd/server/packing.go:10-41 | round trip through the copy for payloads under 65536 bytes |
| Datagrams.ReceivedLength | cmd/server/main.go:33-35 | a read into the 1500-byte buffer delivers the whole datagram, or its first 1500 bytes when it is longer |
| Datagrams.Receive | cmd/server/main.go:33-35 | after a read the buffer starts with the bytes received and keeps, behind them, exactly what it held before |
| Datagrams.Decode | cmd/server/main.go:41 | `Unpack(buf[:n])` after a read: "too short" exactly for datagrams under 11 bytes; a panic exactly when Length exceeds 1489; otherwise the datagram's own header and Length payload bytes, taken from the datagram as far as it reaches and from the buffer's stale bytes after that |
| Datagrams.DecodePacked | cmd/server/main.go:33-41 | a packet of at most 1500 bytes decodes to exactly the header and payload it was packed from, whatever the buffer held before |
| Chunks.Chunk | cmd/server/main.go:83-89 | payload k has at most 1024 bytes; it is non-empty exactly when it starts inside the file, and full-size when the file extends past its end |
| Chunks.ChunkCountIsBound | cmd/server/main.go:74 | payload number k exists exactly when 1024 k is less than the file size |
| Chunks.ConcatChunks | cmd/server/main.go:82-93 | the genuine payloads 0 .. n-1 concatenated are the first min(1024 n, size) bytes of the file |
| Chunks.ConcatAllChunks | cmd/server/main.go:82-121 | all genuine payloads concatenated in order are the whole file |
| Sender.ReadFull | cmd/server/main.go:83-84 | an `io.ReadFull` into a 1024-byte buffer returns the next min(1024, remaining) bytes of the file, and nothing at end of file |
| Sender.SendChunk | cmd/server/main.go:89-92 | sending a chunk moves the cursor past it, increments `nextSeq` with wrap-around, adds exactly the number used to the window with the bytes sent and leaves every other entry alone; for a chunk under 65536 bytes, the bytes sent decode as DATA under the old `nextSeq` with the chunk as payload |
| Sender.FillWindow | cmd/server/main.go:82-93 | the initial fill sends at most as many packets as it has slots and never changes the file |
| Sender.StartSession | cmd/server/main.go:54-93 | a file that cannot be opened is answered by exactly one ERR packet and nothing else; an open file starts serving with at most five packets sent |
| Sender.OnAck | cmd/server/main.go:107-121 | an ACK removes its number from the window, then sends exactly one new DATA under `nextSeq` exactly when the file still has bytes, and stores it in the window |
| Sender.OnNak | cmd/server/main.go:123-127 | a NAK re-sends the stored bytes for a number in the window, and sends nothing for any other number |
| Sender.OnMessage | cmd/server/main.go:104-134 | FIN is sent exactly when the window is empty after the message, and it is the last packet; only an ACK changes the state; a NAK sends its resend, and any other type sends nothing but a possible FIN |
| Sender.OnDatagram | cmd/server/main.go:96-106 | a datagram crashes the session exactly when its length field exceeds 1489; one shorter than a header acts as type 0; otherwise the datagram's own header is handled |
| Sender.Dispatch | cmd/server/main.go:33-51 | the serving loop crashes exactly when a datagram's length field exceeds 1489, and starts a transfer exactly for a non-crashing GET of at least 11 bytes; the name has Length bytes, from the datagram as far as it reaches and from the loop buffer's stale bytes after that |
| Sender.ReadIsNextChunk | cmd/server/main.go:83-89 | between messages the next read returns payload number `nextSeq`; it is empty exactly when the file is exhausted, which happens exactly when `nextSeq` reaches the payload count |
| Sender.SendNextChunkKeepsInv | cmd/server/main.go:89-92 | sending the next chunk keeps the window invariant, sends the genuine DATA packet for `nextSeq`, and increases `nextSeq` by one |
| Sender.FillWindowKeepsInv | cmd/server/main.go:82-93 | the initial fill keeps the invariant; `nextSeq` grows by the number of packets sent; the window gains exactly the numbers used; fewer packets than slots means the file is exhausted |
| Sender.FillWindowSendsNextChunks | cmd/server/main.go:82-93 | the i-th packet of the fill is the genuine DATA packet for `nextSeq + i` |
| Sender.FillWindowCount | cmd/server/main.go:82-93 | the fill sends min(slots, payloads not yet read) packets |
| Sender.StartSessionFillsWindow | cmd/server/main.go:73-93 | a served file starts with DATA 0 .. k-1, where k = min(5, payload count); the window holds exactly those numbers, and `nextSeq` is k |
| Sender.OnMessageKeepsInv | cmd/server/main.go:104-134 | every inbound message keeps the window invariant: numbers below `nextSeq`, each mapped to its genuine DATA packet |
| Sender.AckSendsFreshSeq | cmd/server/main.go:116-120 | when an ACK triggers a send, the number used is not in the window, every window key is below it, and `nextSeq` then rises by one: numbers are never reused |
| Sender.AckInWindowKeepsBound | cmd/server/main.go:107-121 | an ACK for a number in the window never grows the window beyond five |
| Sender.AckAbsentGrowsWindow | cmd/server/main.go:107-121 | an ACK for a number not in the window, while the file has bytes left, still sends one packet and grows the window by one |
| Sender.OnMessageSendsGenuinePackets | cmd/server/main.go:104-134 | every packet a step sends is FIN or the genuine DATA packet of an existing payload number |
| Sender.SentPayloadsAreConsumedPrefix | cmd/server/main.go:74-120 | the payloads sent so far, in sequence order, concatenate to exactly the part of the file read so far |
| Sender.EmptyFileFinishesOnFirstDatagram | cmd/server/main.go:82-134 | an empty file sends no DATA, and its session sends FIN only in answer to the next datagram, whatever that datagram is, unless its length field exceeds 1489, which crashes the session |
| Receiver.RequestPacketDecodes | cmd/client/main.go:34-35 | the first packet decodes as GET with sequence number 0 and the file name as payload |
| Receiver.RequestPacket | cmd/client/main.go:34-35 | the GET is 11 + len(name) bytes: type GET, sequence number 0, the name's length mod 2^16, then the name |
| Receiver.OnMessage | cmd/client/main.go:49-70 | DATA with a bad checksum: NAK for its number, map unchanged. DATA with a good checksum: the payload is stored (replacing any earlier one) and ACKed. ERR fails with its payload; FIN completes with the assembled file; any other type changes nothing and sends nothing |
| Receiver.OnDatagram | cmd/client/main.go:43-49 | the requester crashes exactly when a datagram's length field exceeds 1489; a datagram shorter than a header is ignored; otherwise its decoded header and payload are handled; the request completes only on a datagram whose type byte is FIN and fails only on one whose type byte is ERR |
| Receiver.FirstGap | cmd/client/main.go:81-86 | every finite chunk map has a first missing sequence number: all numbers below it are present and it is not |
| Receiver.AssembleFromIsRange | cmd/client/main.go:81-88 | the assembly loop from number k concatenates chunks k, k+1, ... up to the first gap |
| Receiver.AssembleFileConcatsToFirstGap | cmd/client/main.go:74-90 | the assembled output is chunks[0] ++ ... ++ chunks[g-1], where g is the first missing number |
| Receiver.AssembleFile | cmd/client/main.go:74-90 | the bytes written are chunks[0] ++ ... ++ chunks[g-1], where g is the first missing sequence number |
| Receiver.AssembleIgnoresChunksAfterGap | cmd/client/main.go:81-88 | two chunk maps that agree below a common first gap assemble to the same bytes: chunks after the gap are dropped |
| Transfer.RequestIsServed | cmd/client/main.go:34-35 | a GET whose name fits in one 1500-byte datagram is dispatched by the server with exactly that name |
| Transfer.LongRequestCrashesServer | cmd/server/main.go:33-41 | a name of 1490 to 65496 bytes gives a GET that can still be sent; the receive buffer cuts it off at 1500 bytes while its length field announces all of it, so decoding it panics |
| Transfer.ControlPacketsReachSender | cmd/client/main.go:57-62 | the requester's ACK and NAK decode at the server as ACK and NAK for the same number |
| Transfer.ShortAckIsHandled | cmd/server/main.go:96-108 | an 11-byte ACK for 0 that announces one payload byte is no panic: the session handles it as an ACK for 0 |
| Transfer.ShortGetNamesStaleBytes | cmd/server/main.go:33-49 | an 11-byte GET announcing a 5-byte name asks for the file named by bytes 11 to 15 of the serving loop's buffer, left there by an earlier datagram |
| Transfer.ShortDataIsPadded | cmd/client/main.go:43-62 | a DATA datagram shorter than its length field is checked, and stored when the checksum matches, with its payload padded from the request buffer's stale bytes |
| Transfer.DataIsStoredAndAcked | cmd/client/main.go:55-62 | the sender's genuine DATA packet k is stored under k and ACKed; storing it keeps every held payload genuine |
| Transfer.GapWithinFile | cmd/client/main.go:81-88 | with genuine payloads, the first gap is at most the file's payload count |
| Transfer.AssembledIsPrefix | cmd/client/main.go:74-90 | with genuine payloads, the output is a prefix of the file; it is the whole file exactly when every payload number of the file is present |
| Transfer.FinCompletesWithFile | cmd/client/main.go:67-69 | FIN after every payload arrived intact completes the request with exactly the file's bytes |
| Transfer.MissingFileReported | cmd/server/main.go:55-59 | a missing file is answered by one ERR, and the requester fails with "File not found" |
| Exchange.ServeReplies | cmd/server/main.go:97-135 | while a session runs, the first datagram is handled by the session: its panic takes the server down; its FIN ends the session, and the datagrams after it are dropped; otherwise what it sends comes first. Once the session has ended, every datagram is dropped and nothing is sent |
| Exchange.Take | cmd/client/main.go:41-70 | one read of the requester: the request completes only on a datagram of at least 11 bytes with type FIN, fails only on one with type ERR, and never ends by stalling; with the server out of its session, nothing joins the packets in flight |
| Exchange.Run | cmd/client/main.go:41-70 | requestFile's loop against the server: at most one packet per step; a run cut off by the budget (`Unfinished`) has used every step; the first packet taken is the oldest in flight; completion happens only on a FIN and failure only on an ERR, each the last packet taken; without a session the requester takes a prefix of what was in flight |
| Exchange.Request | cmd/client/main.go:28-72 | a request that the serving loop does not accept as a GET gets nothing back; a file is delivered only when the loop accepted the GET and the decoded name is a readable file |
| Exchange.Session | cmd/server/main.go:54-93 | a session can deliver a file only for a name that is readable |
| Exchange.DataRunAt | cmd/server/main.go:89-92 | packet i of a run of DATA packets from number lo is the genuine DATA packet for lo + i |
| Exchange.ClientTakesNext | cmd/client/main.go:49-62 | in a lossless transfer the requester takes the oldest DATA in flight, stores it and ACKs it, and the sender's answer joins the packets in flight |
| Exchange.SenderAnswersAck | cmd/server/main.go:107-134 | the sender answers the ACK for its oldest outstanding payload with FIN only after the last payload; otherwise the payloads in flight stay exactly the window, in order |
| Exchange.LockstepDelivers | cmd/server/main.go:97-135 | from any point of a lossless transfer, the requester takes the remaining DATA packets in order, then FIN, and ends with the whole file |
| Exchange.AckSent | cmd/server/main.go:107-121 | an ACK while the file has bytes sends exactly the next genuine DATA packet, and the window trades the acknowledged number for the new one |
| Exchange.AckNothingSent | cmd/server/main.go:107-134 | an ACK after the file is exhausted only removes its number from the window and sends nothing but a possible FIN |
| Exchange.FinDelivers | cmd/client/main.go:67-69 | FIN arriving after every payload completes the request with the file |
| Exchange.StartIsLockstep | cmd/server/main.go:73-93 | the session a GET for a non-empty file starts is a lossless transfer with nothing acknowledged yet |
| Exchange.LosslessRequestDelivers | cmd/client/main.go:28-72 | over a lossless channel, a request whose name is at most 1489 bytes for a non-empty readable file delivers exactly that file, after DATA 0 .. n-1 in order and then FIN |
| Exchange.MissingFileFails | cmd/client/main.go:64-65 | a request whose name is at most 1489 bytes for a file the server cannot open fails with "File not found" after the single ERR packet |
| Exchange.EmptyFileStalls | cmd/server/main.go:82-134 | a request whose name is at most 1489 bytes for an empty file stalls: no DATA is sent and the server waits for a datagram before sending FIN |
| Exchange.ThreeThousandByteFile | cmd/server/main.go:73-93 | requested under a name of at most 1489 bytes, a 3000-byte file travels as DATA 0 and 1 with 1024 bytes each, then DATA 2 with the last 952 bytes, then FIN, and arrives byte for byte |

## Left out

- Sockets and addresses (`syscall.Socket`, `Bind`, `Sendto`, `Recvfrom`, `net.DialUDP`): sends are returned lists and receives are arguments. `handleGet` accepts datagrams from any address; the model has one requester.
- Receive errors: both ends log them and retry (server), or fail (requester). The requester's 5-second read deadline is the `Stalled` outcome of `Exchange.Run`; its error text is not modelled.
- File system: `os.Open` is an `Option` argument of `Sender.StartSession`. Any failure to open gives ERR, not only a missing file. The `bufio` reader is the byte sequence itself.
- The fatal non-EOF read error in `handleGet` is not modelled: the byte sequence always reads successfully.
- `assembleFile`'s `os.Create` of `recreated_<name>` and its failure path are left out: the output is the returned byte sequence.
- `simulateCorruption` and `rand.Float64` are left out because they are random. `Receiver.OnMessage` accepts any payload and any checksum, so a corrupted payload is covered as an input.
- Logging, flag parsing, `atoi`, `syscallSendTo`, `sockaddrToUDPAddr`, and the write-only `acked` map are left out. So are the echo demos `cmd/server/server.go` and `cmd/client/client.go`.
- The server command's copy of the codec sits beside a dot import of the `protocol` package. The model does not say which one the command binds to; `ServerPacking.PackAgrees` and `ServerPacking.UnpackAgrees` show that the choice changes nothing.
- `Crc32` is a bitwise definition of CRC-32/IEEE. It has not been compared with Go's `hash/crc32`, and no proof depends on its internals.
- `Receiver.AssembleFromIsRange`: the Go loop counter is a `uint32`. If all 2^32 numbers are present, it wraps to 0 and never stops. The model stops after number 2^32 - 1.
- `Receiver.AssembleFile`: for the same reason, when every number 0 .. 2^32 - 1 is present, the model returns all 2^32 chunks concatenated where `assembleFile` never returns.
- `Sender.Inv`: the window invariant includes a file of at most 1024 · (2^32 - 1) bytes. Beyond that, `nextSeq` wraps and reuses window keys. The step functions still compute the wrap, but no property is proved for such files. Every lemma that assumes the invariant or the size bound inherits this limit: `Sender.OnMessageKeepsInv`, `Sender.ReadIsNextChunk`, `Sender.SendNextChunkKeepsInv`, `Sender.FillWindowKeepsInv`, `Sender.FillWindowSendsNextChunks`, `Sender.FillWindowCount`, `Sender.StartSessionFillsWindow`, `Sender.AckSendsFreshSeq`, `Sender.AckInWindowKeepsBound`, `Sender.AckAbsentGrowsWindow`, `Sender.OnMessageSendsGenuinePackets`, `Sender.SentPayloadsAreConsumedPrefix`, `Transfer.GapWithinFile`, `Transfer.AssembledIsPrefix`, `Transfer.FinCompletesWithFile`, and the `Exchange` lockstep lemmas up to `Exchange.LosslessRequestDelivers`.
- `Exchange.LosslessRequestDelivers`: only the lossless, in-order schedule is proved, where each of the requester's datagrams is handled before the next packet reaches it. Loss, reordering and corruption are not explored.
- `Exchange.Run` is bounded by a step budget: runs longer than the budget end as `Unfinished`.
- Exchange.Request: a GET of more than 65507 bytes (a name over 65496 bytes) exceeds the largest UDP payload, so `conn.Write` fails, its error is ignored and the server never hears of the request. The model does not apply this limit and hands such a GET to the serving loop; `Transfer.LongRequestCrashesServer` stops at names of 65496 bytes for this reason.

=== FILE: bytes.dfy ===
/** Fixed-width unsigned integers and the big-endian byte layout used on the wire
    (Go's `encoding/binary.BigEndian`). */
module Bytes {

  type byte = x: int | 0 <= x < 0x100
  type uint16 = x: int | 0 <= x < 0x1_0000
  type uint32 = x: int | 0 <= x < 0x1_0000_0000

  /** The smaller of `a` and `b`. */
  function Min(a: int, b: int): (m: int)
    ensures m <= a && m <= b
    ensures m == a || m == b
  {
    if a <= b then a else b
  }

  /** Go's `x++` on a `uint32`: wraps from 2^32 - 1 back to 0. */
  function Inc32(x: uint32): (r: uint32)
    ensures x < 0xFFFF_FFFF ==> r == x + 1
    ensures x == 0xFFFF_FFFF ==> r == 0
  {
    if x == 0xFFFF_FFFF then 0 else x + 1
  }

  /** The value of the two bytes at `off`, most significant first. */
  function ReadUint16(b: seq<byte>, off: nat): (v: uint16)
    requires off + 2 <= |b|
  {
    (b[off] as int) * 0x100 + b[off + 1] as int
  }

  /** The value of the four bytes at `off`, most significant first. */
  function ReadUint32(b: seq<byte>, off: nat): (v: uint32)
    requires off + 4 <= |b|
  {
    (b[off] as int) * 0x100_0000 + (b[off + 1] as int) * 0x1_0000
      + (b[off + 2] as int) * 0x100 + b[off + 3] as int
  }

  /** `binary.Write(buf, binary.BigEndian, v)` for a `uint16`. */
  function Uint16ToBE(v: uint16): (r: seq<byte>)
    ensures |r| == 2
    ensures ReadUint16(r, 0) == v
  {
    [v / 0x100, v % 0x100]
  }

  /** `binary.Write(buf, binary.BigEndian, v)` for a `uint32`. */
  function Uint32ToBE(v: uint32): (r: seq<byte>)
    ensures |r| == 4
    ensures ReadUint32(r, 0) == v
  {
    var q1 := v / 0x100;
    var q2 := q1 / 0x100;
    [q2 / 0x100, q2 % 0x100, q1 % 0x100, v % 0x100]
  }

  /** Reading two bytes and writing them back gives the same two bytes. */
  lemma Uint16BytesRoundTrip(b: seq<byte>, off: nat)
    requires off + 2 <= |b|
    ensures Uint16ToBE(ReadUint16(b, off)) == b[off .. off + 2]
  {
  }

  /** Reading four bytes and writing them back gives the same four bytes. */
  lemma Uint32BytesRoundTrip(b: seq<byte>, off: nat)
    requires off + 4 <= |b|
    ensures Uint32ToBE(ReadUint32(b, off)) == b[off .. off + 4]
  {
    var b0, b1, b2, b3 := b[off] as int, b[off + 1] as int, b[off + 2] as int, b[off + 3] as int;
    assert ReadUint32(b, off) == ((b0 * 0x100 + b1) * 0x100 + b2) * 0x100 + b3;
    DivModByte(((b0 * 0x100 + b1) * 0x100 + b2), b3);
    DivModByte(b0 * 0x100 + b1, b2);
    DivModByte(b0, b1);
  }

  /** Dividing `q * 256 + r` by 256 splits off the low byte `r`. */
  lemma DivModByte(q: nat, r: byte)
    ensures (q * 0x100 + r) / 0x100 == q && (q * 0x100 + r) % 0x100 == r
  {
  }

  /** The bytes of an ASCII string literal, as Go's `[]byte("...")` produces them. */
  function Ascii(s: string): (r: seq<byte>)
    requires forall i :: 0 <= i < |s| ==> s[i] as int < 0x80
    ensures |r| == |s|
    ensures forall i :: 0 <= i < |s| ==> r[i] == s[i] as int
  {
    seq(|s|, i requires 0 <= i < |s| => s[i] as int)
  }
}

=== FILE: chunks.dfy ===
/** How a file is cut into DATA payloads and how payloads keyed by sequence number are
    glued back together. Sender and receiver both refer to these definitions. */
module Chunks {
  import opened Bytes

  /** Bytes per DATA payload: the size of the server's read buffer. */
  const PayloadSize: nat := 1024

  /** Number of payloads a file of `n` bytes is cut into: one per non-empty read. */
  function ChunkCount(n: nat): (count: nat)
    ensures count * 1024 >= n
    ensures count == 0 || (count - 1) * 1024 < n
  {
    (n + 1023) / 1024
  }

  /** Payload number `k` of `file`: the bytes at offsets [1024k, 1024(k+1)) that exist. */
  function Chunk(file: seq<byte>, k: nat): (c: seq<byte>)
    ensures |c| <= PayloadSize
    ensures k * 1024 < |file| <==> |c| > 0
    ensures (k + 1) * 1024 <= |file| ==> |c| == PayloadSize
  {
    if k * 1024 >= |file| then []
    else file[k * 1024 .. Min(k * 1024 + 1024, |file|)]
  }

  /** Payload `k` exists exactly when it starts inside the file. */
  lemma ChunkCountIsBound(n: nat, k: nat)
    ensures k < ChunkCount(n) <==> k * 1024 < n
  {
  }

  /** Every sequence number in [lo, hi) has a payload in `chunks`. */
  ghost predicate HasRange(chunks: map<uint32, seq<byte>>, lo: nat, hi: nat)
  {
    forall k: uint32 :: lo <= k < hi ==> k in chunks
  }

  /** chunks[lo] ++ chunks[lo+1] ++ ... ++ chunks[hi-1]. */
  function ConcatRange(chunks: map<uint32, seq<byte>>, lo: nat, hi: nat): (out: seq<byte>)
    requires hi <= 0x1_0000_0000
    requires HasRange(chunks, lo, hi)
    decreases hi
  {
    if hi <= lo then [] else ConcatRange(chunks, lo, hi - 1) + chunks[hi - 1]
  }

  /** `chunks` holds the right payload of `file` under every number below `n`. */
  ghost predicate ChunksOf(chunks: map<uint32, seq<byte>>, file: seq<byte>, n: nat)
  {
    forall k: uint32 :: k < n ==> k in chunks && chunks[k] == Chunk(file, k)
  }

  /** The first `n` payloads of a file, in order, spell out its first
      min(1024 n, |file|) bytes. */
  lemma {:induction false} ConcatChunks(chunks: map<uint32, seq<byte>>, file: seq<byte>, n: nat)
    requires n == 0 || (n - 1) * 1024 < |file|
    requires n <= 0x1_0000_0000
    requires ChunksOf(chunks, file, n)
    ensures HasRange(chunks, 0, n)
    ensures ConcatRange(chunks, 0, n) == file[.. Min(n * 1024, |file|)]
  {
    if n > 0 {
      var m := n - 1;
      var lo := m * 1024;
      var hi := Min(lo + 1024, |file|);
      assert n * 1024 == lo + 1024;
      ConcatChunks(chunks, file, m);
      assert ConcatRange(chunks, 0, m) == file[.. lo];
      assert chunks[m] == file[lo .. hi];
      assert ConcatRange(chunks, 0, n) == ConcatRange(chunks, 0, m) + chunks[m];
      assert file[.. hi] == file[.. lo] + file[lo .. hi];
    }
  }

  /** All payloads of the file, in order, give back the whole file. */
  lemma ConcatAllChunks(chunks: map<uint32, seq<byte>>, file: seq<byte>)
    requires ChunkCount(|file|) <= 0x1_0000_0000
    requires ChunksOf(chunks, file, ChunkCount(|file|))
    ensures HasRange(chunks, 0, ChunkCount(|file|))
    ensures ConcatRange(chunks, 0, ChunkCount(|file|)) == file
  {
    var n := ChunkCount(|file|);
    ChunkCountIsBound(|file|, n);
    if n > 0 {
      ChunkCountIsBound(|file|, n - 1);
    }
    ConcatChunks(chunks, file, n);
    assert file[.. Min(ChunkCount(|file|) * 1024, |file|)] == file;
  }
}

=== FILE: crc32.dfy ===
/** CRC-32 with the IEEE 802.3 polynomial in its reflected form, the checksum Go's
    `crc32.ChecksumIEEE` computes. No property of the protocol depends on how the value
    is computed: every proof treats `ChecksumIEEE` as an opaque function of the payload. */
module Crc32 {
  import opened Bytes

  /** The IEEE polynomial 0x04C11DB7, bit-reversed. */
  const ReversedPolynomial: bv32 := 0xEDB8_8320

  /** Shifts `bits` bits out of the register, least significant first. */
  function ShiftBits(crc: bv32, bits: nat): (shifted: bv32)
    decreases bits
  {
    if bits == 0 then crc
    else if crc & 1 == 1 then ShiftBits((crc >> 1) ^ ReversedPolynomial, bits - 1)
    else ShiftBits(crc >> 1, bits - 1)
  }

  /** Feeds `data` through the register, one byte at a time. */
  function Update(crc: bv32, data: seq<byte>): (updated: bv32)
    decreases |data|
  {
    if |data| == 0 then crc
    else Update(ShiftBits(crc ^ (data[0] as bv32), 8), data[1..])
  }

  /** The register starts all ones and is complemented at the end. */
  function ChecksumIEEE(data: seq<byte>): (checksum: uint32)
  {
    (Update(0xFFFF_FFFF, data) ^ 0xFFFF_FFFF) as int
  }
}

=== FILE: datagrams.dfy ===
/** Receiving a datagram: every receiving loop reads into a 1500-byte buffer it made once
    and keeps for its whole life, then decodes the slice `buf[:n]` of the bytes just read.
    That slice still has the buffer's full capacity, so a length field that overruns `n`
    reaches into bytes an earlier read left behind. */
module Datagrams {
  import opened Bytes
  import opened Packing
  import Crc32

  const RecvBufferSize: nat := 1500

  /** Largest UDP payload over IPv4: 65535 bytes less the 8-byte UDP and the 20-byte IP
      header. A longer write fails and nothing is sent. */
  const MaxDatagramSize: nat := 65507

  /** `n` zero bytes, built by halving so that a constant length unfolds in few steps. */
  function Zeros(n: nat): (z: seq<byte>)
    ensures |z| == n
    ensures forall i :: 0 <= i < n ==> z[i] == 0
  {
    if n == 0 then [] else Zeros(n / 2) + Zeros(n / 2) + (if n % 2 == 1 then [0] else [])
  }

  /** `make([]byte, 1500)`: a buffer that has not been read into yet. */
  const FreshBuffer: Buffer := Zeros(RecvBufferSize)

  /** The contents of a receive buffer. */
  type Buffer = b: seq<byte> | |b| == RecvBufferSize witness Zeros(RecvBufferSize)

  /** How many bytes a read delivers: the whole datagram, or the first 1500 bytes of a
      longer one, whose rest is discarded. */
  function ReceivedLength(dgram: seq<byte>): (n: nat)
    ensures n <= RecvBufferSize && n <= |dgram|
    ensures n == |dgram| || n == RecvBufferSize
  {
    Min(|dgram|, RecvBufferSize)
  }

  /** The buffer after a read of `dgram`: the bytes received overwrite its front, and the
      bytes behind them are the ones earlier reads left there. */
  function Receive(buffer: Buffer, dgram: seq<byte>): (r: Buffer)
    ensures forall i :: 0 <= i < ReceivedLength(dgram) ==> r[i] == dgram[i]
    ensures forall i :: ReceivedLength(dgram) <= i < RecvBufferSize ==> r[i] == buffer[i]
  {
    dgram[.. ReceivedLength(dgram)] + buffer[ReceivedLength(dgram) ..]
  }

  /** `Unpack(buf[:n])` right after the read of `dgram` into `buffer`. The header is the
      datagram's own; it panics exactly when the length field exceeds the room behind the
      header in the buffer, and otherwise the payload is `Length` bytes, taken from the
      datagram as far as it reaches and from the buffer's stale bytes after that. */
  function Decode(buffer: Buffer, dgram: seq<byte>): (r: UnpackResult)
    ensures r.TooShort? <==> |dgram| < HeaderSize
    ensures r.SliceOutOfRange? <==>
              |dgram| >= HeaderSize && ReadUint16(dgram, 5) > RecvBufferSize - HeaderSize
    ensures r.Unpacked? ==>
              && r.header == Header(dgram[0], ReadUint32(dgram, 1), ReadUint16(dgram, 5), ReadUint32(dgram, 7))
              && |r.payload| == r.header.length
    ensures r.Unpacked? && HeaderSize + r.header.length <= |dgram| ==>
              r.payload == dgram[HeaderSize .. HeaderSize + r.header.length]
    ensures r.Unpacked? && HeaderSize + r.header.length > |dgram| ==>
              && r.payload[.. |dgram| - HeaderSize] == dgram[HeaderSize ..]
              && r.payload[|dgram| - HeaderSize ..] == buffer[|dgram| .. HeaderSize + r.header.length]
  {
    Unpack(Receive(buffer, dgram), ReceivedLength(dgram))
  }

  /** A packet that fits the buffer decodes to exactly what was packed, whatever the
      buffer held before. */
  lemma DecodePacked(buffer: Buffer, msgType: byte, msgSeq: uint32, data: seq<byte>)
    requires HeaderSize + |data| <= RecvBufferSize
    ensures Decode(buffer, Pack(msgType, msgSeq, data))
         == Unpacked(Header(msgType, msgSeq, |data|, Crc32.ChecksumIEEE(data)), data)
  {
    hide Crc32.ChecksumIEEE, Pack, Unpack;
    var p := Pack(msgType, msgSeq, data);
    var b := Receive(buffer, p);
    assert ReceivedLength(p) == |p|;
    assert b[.. |p|] == p;
    UnpackPack(msgType, msgSeq, data, b);
  }
}

=== FILE: exchange.dfy ===
/** One whole request over a channel that loses, reorders and corrupts nothing: the
    requester takes the packets addressed to it one at a time, in the order they were
    sent, and each datagram it sends is handled by the server before the next packet
    arrives. A step budget (`fuel`) bounds the run. */
module Exchange {
  import opened Wrappers
  import opened Bytes
  import opened Packing
  import opened Chunks
  import opened Datagrams
  import Crc32
  import Sender
  import Receiver
  import Transfer

  /** How a request ends. `Stalled`: neither side has anything in flight, so the
      requester's read deadline expires. `Unfinished`: the step budget ran out. */
  datatype Outcome =
    | Delivered(file: seq<byte>)
    | Failed(message: seq<byte>)
    | Stalled
    | Unfinished
    | ServerCrashed
    | ClientCrashed

  /** The server: in `handleGet` for the current request, with that session's receive
      buffer; back in its serving loop; or stopped by a panic. */
  datatype ServerPhase = Busy(state: Sender.SenderState, buffer: Buffer) | Idle | Down

  /** The server receives the requester's datagrams in order. Once the transfer has
      ended, they reach the serving loop, which drops every datagram but a GET, and the
      requester sends only ACK and NAK. A session's panic takes the server down, and FIN
      ends the session. */
  function ServeReplies(phase: ServerPhase, replies: seq<seq<byte>>): (r: (ServerPhase, seq<seq<byte>>))
    ensures !phase.Busy? ==> r == (phase, [])
    ensures r.0.Busy? ==> phase.Busy?
    ensures (phase.Busy? && |replies| > 0
             && Sender.OnDatagram(phase.state, phase.buffer, replies[0]).Crashed?) ==> r == (Down, [])
    ensures (phase.Busy? && |replies| > 0
             && Sender.OnDatagram(phase.state, phase.buffer, replies[0]).Handled?) ==>
              && |Sender.OnDatagram(phase.state, phase.buffer, replies[0]).step.sent| <= |r.1|
              && r.1[.. |Sender.OnDatagram(phase.state, phase.buffer, replies[0]).step.sent|]
                 == Sender.OnDatagram(phase.state, phase.buffer, replies[0]).step.sent
              && (Sender.OnDatagram(phase.state, phase.buffer, replies[0]).step.finSent ==>
                    r == (Idle, Sender.OnDatagram(phase.state, phase.buffer, replies[0]).step.sent))
    decreases |replies|
  {
    if |replies| == 0 || !phase.Busy? then (phase, [])
    else
      var inbound := Sender.OnDatagram(phase.state, phase.buffer, replies[0]);
      if inbound.Crashed? then (Down, [])
      else if inbound.step.finSent then (Idle, inbound.step.sent)
      else
        var rest := ServeReplies(Busy(inbound.step.state, Receive(phase.buffer, replies[0])), replies[1..]);
        (rest.0, inbound.step.sent + rest.1)
  }

  /** The phase the server is in after a step that left its buffer holding `buffer`. */
  function PhaseAfter(step: Sender.Step, buffer: Buffer): (phase: ServerPhase)
  {
    if step.finSent then Idle else Busy(step.state, buffer)
  }

  /** What a step leaves: the request has ended, or it goes on with the server in
      `phase`, `toClient` in flight to the requester, which holds `received` and whose
      receive buffer holds `buffer`. */
  datatype Turn =
    | Ends(outcome: Outcome)
    | Goes(phase: ServerPhase, toClient: seq<seq<byte>>, received: map<uint32, seq<byte>>, buffer: Buffer)

  /** One step: the requester reads `p`, the oldest packet in flight, while `later` is
      still on its way; the server handles every datagram the requester sends back, and
      whatever it sends joins the packets in flight behind `later`. FIN and ERR end the
      request, and so does a panic on either side. */
  function Take(phase: ServerPhase, p: seq<byte>, later: seq<seq<byte>>, received: map<uint32, seq<byte>>,
                buffer: Buffer): (t: Turn)
    ensures t.Ends? ==> !t.outcome.Stalled? && !t.outcome.Unfinished?
    ensures t.Ends? && t.outcome.Delivered? ==> |p| >= HeaderSize && p[0] == MsgTypeFin
    ensures t.Ends? && t.outcome.Failed? ==> |p| >= HeaderSize && p[0] == MsgTypeErr
    ensures t.Goes? && !phase.Busy? ==> t.phase == phase && t.toClient == later
  {
    var inbound := Receiver.OnDatagram(received, buffer, p);
    if inbound.Crashed? then Ends(ClientCrashed)
    else
      match inbound.step
      case ServerError(m) => Ends(Failed(m))
      case Completed(f) => Ends(Delivered(f))
      case Continue(kept, replies) =>
        var server := ServeReplies(phase, replies);
        if server.0.Down? then Ends(ServerCrashed)
        else Goes(server.0, later + server.1, kept, Receive(buffer, p))
  }

  /** The rest of a request: `toClient` is in flight to the requester, which holds
      `received` and whose receive buffer holds `buffer`. Returns the outcome and every
      packet the requester took, in order: one per step, starting with the oldest packet
      in flight. The request completes only on a FIN and fails only on an ERR, each the
      last packet taken; with the server out of its session, the requester takes only
      what was already in flight. */
  function Run(phase: ServerPhase, toClient: seq<seq<byte>>, received: map<uint32, seq<byte>>,
               buffer: Buffer, fuel: nat): (r: (Outcome, seq<seq<byte>>))
    ensures |r.1| <= fuel
    ensures r.0.Unfinished? ==> |r.1| == fuel
    ensures |toClient| > 0 && fuel > 0 ==> |r.1| > 0 && r.1[0] == toClient[0]
    ensures r.0.Delivered? ==> EndsWith(r.1, MsgTypeFin)
    ensures r.0.Failed? ==> EndsWith(r.1, MsgTypeErr)
    ensures !phase.Busy? ==> |r.1| <= |toClient| && r.1 == toClient[.. |r.1|]
    decreases fuel
  {
    hide Take, EndsWith;
    if |toClient| == 0 then (Stalled, [])
    else if fuel == 0 then (Unfinished, [])
    else
      match Take(phase, toClient[0], toClient[1..], received, buffer)
      case Ends(outcome) => TraceCons(toClient, []); (outcome, [toClient[0]])
      case Goes(next, later, kept, after) =>
        var rest := Run(next, later, kept, after, fuel - 1);
        TraceCons(toClient, rest.1);
        (rest.0, [toClient[0]] + rest.1)
  }

  /** The last packet of `trace` is a whole header's worth long and has type `msgType`. */
  predicate EndsWith(trace: seq<seq<byte>>, msgType: byte)
  {
    |trace| > 0 && |trace[|trace| - 1]| >= HeaderSize && trace[|trace| - 1][0] == msgType
  }

  /** Putting the packet taken first in front of the packets taken after it. */
  lemma TraceCons(toClient: seq<seq<byte>>, trace: seq<seq<byte>>)
    requires |toClient| > 0
    ensures |[toClient[0]] + trace| == |trace| + 1 && ([toClient[0]] + trace)[0] == toClient[0]
    ensures forall m :: EndsWith(trace, m) ==> EndsWith([toClient[0]] + trace, m)
    ensures forall m :: |toClient[0]| >= HeaderSize && toClient[0][0] == m ==> EndsWith([toClient[0]], m)
    ensures |trace| < |toClient| && trace == toClient[1..][.. |trace|] ==>
              [toClient[0]] + trace == toClient[.. |trace| + 1]
  {
  }

  /** A whole request for `filename` against a server whose readable files are `files`
      and whose serving loop's buffer holds `loopBuffer` from earlier requests. The
      session and the requester start with fresh buffers. A file is delivered only when
      the serving loop accepted the GET and found the name it decoded. */
  function Request(files: map<seq<byte>, seq<byte>>, loopBuffer: Buffer, filename: seq<byte>, fuel: nat)
    : (r: (Outcome, seq<seq<byte>>))
    ensures !Sender.Dispatch(loopBuffer, Receiver.RequestPacket(filename)).Serve? ==> r.1 == []
    ensures r.0.Delivered? ==>
              && Sender.Dispatch(loopBuffer, Receiver.RequestPacket(filename)).Serve?
              && Sender.Dispatch(loopBuffer, Receiver.RequestPacket(filename)).filename in files
  {
    var request := Sender.Dispatch(loopBuffer, Receiver.RequestPacket(filename));
    if request.DispatchCrashed? then (ServerCrashed, [])
    else if request.Ignored? then (Stalled, [])
    else Session(files, request.filename, fuel)
  }

  /** `handleGet` for `name`: an unreadable name gets ERR and the serving loop moves
      on; a readable one starts a session with a fresh receive buffer. The file is
      delivered only if the name is readable. */
  function Session(files: map<seq<byte>, seq<byte>>, name: seq<byte>, fuel: nat): (r: (Outcome, seq<seq<byte>>))
    ensures r.0.Delivered? ==> name in files
  {
    hide Pack, Crc32.ChecksumIEEE, Ascii, Run, Sender.StartSession;
    match Sender.StartSession(if name in files then Some(files[name]) else None)
    case Refused(sent) => Run(Idle, sent, map[], FreshBuffer, fuel)
    case Serving(s, sent) => Run(Busy(s, FreshBuffer), sent, map[], FreshBuffer, fuel)
  }

  /** DATA packets `lo`, ..., `hi - 1` of `file`, in order. */
  function DataRun(file: seq<byte>, lo: nat, hi: nat): (r: seq<seq<byte>>)
    requires lo <= hi <= 0x1_0000_0000
    ensures |r| == hi - lo
    decreases hi - lo
  {
    if lo == hi then [] else [Sender.DataPacket(file, lo)] + DataRun(file, lo + 1, hi)
  }

  /** Packet `i` of a run is the DATA packet for `lo + i`. */
  lemma {:induction false} DataRunAt(file: seq<byte>, lo: nat, hi: nat)
    requires lo <= hi <= 0x1_0000_0000
    ensures forall i :: 0 <= i < hi - lo ==> DataRun(file, lo, hi)[i] == Sender.DataPacket(file, lo + i)
    decreases hi - lo
  {
    hide Pack, Sender.DataPacket, Unpack, Crc32.ChecksumIEEE;
    if lo < hi {
      DataRunAt(file, lo + 1, hi);
      forall i | 0 < i < hi - lo
        ensures DataRun(file, lo, hi)[i] == Sender.DataPacket(file, lo + i)
      {
        assert DataRun(file, lo, hi)[i] == DataRun(file, lo + 1, hi)[i - 1];
      }
    }
  }

  /** Between two packets of a lossless transfer: payloads `a`, ..., `nextSeq - 1` are in
      flight, in order, and are exactly the window; the requester holds genuine payloads
      for every number below `a`. */
  ghost predicate Lockstep(s: Sender.SenderState, a: nat, received: map<uint32, seq<byte>>, toClient: seq<seq<byte>>)
  {
    && Sender.Inv(s)
    && a < s.nextSeq
    && toClient == DataRun(s.file, a, s.nextSeq)
    && (forall k :: k in s.window <==> a <= k < s.nextSeq)
    && Transfer.Faithful(received, s.file)
    && HasRange(received, 0, a)
  }

  /** Removing the head of a run of DATA packets. */
  lemma DataRunTail(file: seq<byte>, lo: nat, hi: nat)
    requires lo < hi <= 0x1_0000_0000
    ensures DataRun(file, lo, hi)[0] == Sender.DataPacket(file, lo)
    ensures DataRun(file, lo, hi)[1..] == DataRun(file, lo + 1, hi)
  {
    hide Sender.DataPacket;
  }

  /** Appending the next DATA packet to a run. */
  lemma {:induction false} DataRunSnoc(file: seq<byte>, lo: nat, hi: nat)
    requires lo <= hi < 0x1_0000_0000
    ensures DataRun(file, lo, hi) + [Sender.DataPacket(file, hi)] == DataRun(file, lo, hi + 1)
    decreases hi - lo
  {
    hide Pack, Sender.DataPacket, Unpack, Crc32.ChecksumIEEE;
    if lo < hi {
      DataRunSnoc(file, lo + 1, hi);
    }
  }

  /** The requester's ACK for payload `a`, as a header. */
  function AckHeader(a: uint32): (h: Header)
  {
    Header(MsgTypeAck, a, 0, Crc32.ChecksumIEEE([]))
  }

  /** The requester's ACK for `a`, as the sender handles it. */
  lemma AckStep(s: Sender.SenderState, buffer: Buffer, a: uint32)
    ensures ServeReplies(Busy(s, buffer), [Receiver.AckPacket(a)])
         == (var step := Sender.OnMessage(s, AckHeader(a));
             (PhaseAfter(step, Receive(buffer, Receiver.AckPacket(a))), step.sent))
  {
    hide Pack, Sender.OnMessage, Unpack, Crc32.ChecksumIEEE;
    Transfer.ControlPacketsReachSender(s, buffer, a);
    var step := Sender.OnMessage(s, AckHeader(a));
    var next := PhaseAfter(step, Receive(buffer, Receiver.AckPacket(a)));
    assert [Receiver.AckPacket(a)][1..] == [];
    assert ServeReplies(next, []) == (next, []);
    assert step.sent + [] == step.sent;
  }

  /** One packet of a lossless transfer, as `Run` takes it: the requester stores payload
      `a` and acknowledges it, and the sender's answer to that ACK joins the packets
      still in flight. */
  lemma ClientTakesNext(s: Sender.SenderState, serverBuffer: Buffer, a: nat, received: map<uint32, seq<byte>>,
                        clientBuffer: Buffer, toClient: seq<seq<byte>>, fuel: nat)
    requires Lockstep(s, a, received, toClient) && fuel > 0
    ensures a < 0x1_0000_0000
    ensures var step := Sender.OnMessage(s, AckHeader(a));
            var r := Run(PhaseAfter(step, Receive(serverBuffer, Receiver.AckPacket(a))), toClient[1..] + step.sent,
                         received[a := Chunk(s.file, a)], Receive(clientBuffer, Sender.DataPacket(s.file, a)), fuel - 1);
            Run(Busy(s, serverBuffer), toClient, received, clientBuffer, fuel)
              == (r.0, [Sender.DataPacket(s.file, a)] + r.1)
  {
    hide Chunk, Sender.OnMessage, Sender.Inv, Receiver.OnDatagram, Unpack, Crc32.ChecksumIEEE;
    Sender.ReadIsNextChunk(s);
    var k: uint32 := a;
    DataRunTail(s.file, a, s.nextSeq);
    ChunkCountIsBound(|s.file|, a);
    Transfer.DataIsStoredAndAcked(received, clientBuffer, s.file, k);
    AckStep(s, serverBuffer, k);
  }

  /** What the sender does with the ACK for the oldest outstanding payload `a`: send the
      next payload while the file lasts; otherwise send nothing until `a` was the last
      one, and then FIN. */
  lemma SenderAnswersAck(s: Sender.SenderState, a: nat, received: map<uint32, seq<byte>>, toClient: seq<seq<byte>>)
    requires Lockstep(s, a, received, toClient)
    ensures a < 0x1_0000_0000
    ensures var step := Sender.OnMessage(s, AckHeader(a));
      && Sender.Inv(step.state) && step.state.file == s.file
      && (step.finSent ==> step.sent == [Sender.FinPacket] && a + 1 == ChunkCount(|s.file|) == s.nextSeq)
      && (!step.finSent ==>
            && a + 1 < step.state.nextSeq
            && (forall k :: k in step.state.window <==> a + 1 <= k < step.state.nextSeq)
            && toClient[1..] + step.sent == DataRun(s.file, a + 1, step.state.nextSeq))
  {
    hide Sender.DataPacket, Sender.OnMessage, DataRun;
    var file := s.file;
    Sender.ReadIsNextChunk(s);
    var h := AckHeader(a);
    var step := Sender.OnMessage(s, h);
    Sender.OnMessageKeepsInv(s, h);
    DataRunTail(file, a, s.nextSeq);
    var rest := toClient[1..];
    if s.cursor < |file| {
      AckSent(s, h);
      Sender.AckSendsFreshSeq(s, h);
      assert s.nextSeq in step.state.window;
      DataRunSnoc(file, a + 1, s.nextSeq);
    } else {
      AckNothingSent(s, h);
      if a + 1 < s.nextSeq {
        assert (a + 1) as uint32 in step.state.window;
        assert rest + step.sent == rest;
      } else {
        assert |step.state.window| == 0;
      }
    }
  }

  /** A lossless transfer with payloads `a`, ... in flight ends with the requester
      holding the whole file, after taking the remaining DATA packets in order and
      then FIN, whatever the two receive buffers held. */
  lemma {:induction false} LockstepDelivers(s: Sender.SenderState, serverBuffer: Buffer, a: nat,
                                            received: map<uint32, seq<byte>>, clientBuffer: Buffer,
                                            toClient: seq<seq<byte>>, fuel: nat)
    requires Lockstep(s, a, received, toClient)
    requires fuel > ChunkCount(|s.file|) - a
    ensures ChunkCount(|s.file|) <= 0x1_0000_0000
    ensures Run(Busy(s, serverBuffer), toClient, received, clientBuffer, fuel)
         == (Delivered(s.file), DataRun(s.file, a, ChunkCount(|s.file|)) + [Sender.FinPacket])
    decreases ChunkCount(|s.file|) - a
  {
    hide Sender.OnMessage, Run, Crc32.ChecksumIEEE, Lockstep, Transfer.Faithful, Receive;
    var n := ChunkCount(|s.file|);
    NextLockstep(s, a, received, toClient);
    ClientTakesNext(s, serverBuffer, a, received, clientBuffer, toClient, fuel);
    var step := Sender.OnMessage(s, AckHeader(a));
    var kept := received[a := Chunk(s.file, a)];
    var q := toClient[1..] + step.sent;
    var sb := Receive(serverBuffer, Receiver.AckPacket(a));
    var cb := Receive(clientBuffer, Sender.DataPacket(s.file, a));
    if step.finSent {
      FinDelivers(kept, cb, s.file, fuel - 1);
    } else {
      LockstepDelivers(step.state, sb, a + 1, kept, cb, q, fuel - 1);
      DataRunCons(s.file, a, n);
    }
  }

  /** After the requester stores payload `a` and the sender answers its ACK, the
      transfer is again in lockstep one payload further on, or FIN is the only packet in
      flight and the requester holds every payload. */
  lemma NextLockstep(s: Sender.SenderState, a: nat, received: map<uint32, seq<byte>>, toClient: seq<seq<byte>>)
    requires Lockstep(s, a, received, toClient)
    ensures a < ChunkCount(|s.file|) <= 0x1_0000_0000 && |toClient| > 0
    ensures var step := Sender.OnMessage(s, AckHeader(a));
            var kept := received[a := Chunk(s.file, a)];
            var q := toClient[1..] + step.sent;
      && (step.finSent ==>
            && q == [Sender.FinPacket]
            && Transfer.Faithful(kept, s.file) && |s.file| <= Sender.MaxFileSize
            && HasRange(kept, 0, ChunkCount(|s.file|))
            && DataRun(s.file, a, ChunkCount(|s.file|)) + [Sender.FinPacket]
               == [Sender.DataPacket(s.file, a)] + [Sender.FinPacket])
      && (!step.finSent ==>
            && step.state.file == s.file
            && Lockstep(step.state, a + 1, kept, q))
  {
    hide Sender.Inv, Crc32.ChecksumIEEE;
    var file := s.file;
    var n := ChunkCount(|file|);
    StoresNext(s, a, received, toClient);
    SenderAnswersAck(s, a, received, toClient);
    var step := Sender.OnMessage(s, AckHeader(a));
    if step.finSent {
      assert |toClient| == 1;
      DataRunTail(file, a, n);
    }
  }

  /** Storing payload `a` extends the requester's genuine payloads by one number. */
  lemma StoresNext(s: Sender.SenderState, a: nat, received: map<uint32, seq<byte>>, toClient: seq<seq<byte>>)
    requires Lockstep(s, a, received, toClient)
    ensures a < ChunkCount(|s.file|) <= 0x1_0000_0000 && |toClient| > 0
    ensures Transfer.Faithful(received[a := Chunk(s.file, a)], s.file)
    ensures HasRange(received[a := Chunk(s.file, a)], 0, a + 1)
  {
    hide Chunk, Crc32.ChecksumIEEE, Decode;
    Sender.ReadIsNextChunk(s);
    ChunkCountIsBound(|s.file|, a);
    Transfer.DataIsStoredAndAcked(received, FreshBuffer, s.file, a);
  }

  /** Putting a DATA packet in front of the run that follows it. */
  lemma DataRunCons(file: seq<byte>, a: nat, n: nat)
    requires a < n <= 0x1_0000_0000
    ensures [Sender.DataPacket(file, a)] + (DataRun(file, a + 1, n) + [Sender.FinPacket])
         == DataRun(file, a, n) + [Sender.FinPacket]
  {
    hide Sender.DataPacket, DataRun;
    DataRunTail(file, a, n);
    assert DataRun(file, a, n) == [Sender.DataPacket(file, a)] + DataRun(file, a + 1, n);
  }

  /** An ACK while the file still has bytes: exactly one new DATA packet goes out and the
      window gains its number. */
  lemma AckSent(s: Sender.SenderState, h: Header)
    requires Sender.Inv(s) && h.msgType == MsgTypeAck && s.cursor < |s.file|
    ensures Sender.OnMessage(s, h).sent == [Sender.DataPacket(s.file, s.nextSeq)]
    ensures forall k :: k in Sender.OnMessage(s, h).state.window <==>
              (k in s.window && k != h.seqNum) || k == s.nextSeq
  {
    hide Pack, Sender.DataPacket, Chunk, Unpack, Crc32.ChecksumIEEE;
    Sender.AckSendsFreshSeq(s, h);
    Sender.ReadIsNextChunk(s);
  }

  /** An ACK once the file is exhausted: nothing but possibly FIN goes out and the
      window only loses the acknowledged number. */
  lemma AckNothingSent(s: Sender.SenderState, h: Header)
    requires Sender.Inv(s) && h.msgType == MsgTypeAck && s.cursor >= |s.file|
    ensures Sender.OnMessage(s, h).state == s.(window := s.window - {h.seqNum})
    ensures Sender.OnMessage(s, h).sent == (if Sender.OnMessage(s, h).finSent then [Sender.FinPacket] else [])
  {
    hide Pack, Sender.DataPacket, Chunk, Unpack, Crc32.ChecksumIEEE;
  }

  /** FIN, the last packet in flight, completes the request once every payload has
      arrived intact. */
  lemma FinDelivers(received: map<uint32, seq<byte>>, buffer: Buffer, file: seq<byte>, fuel: nat)
    requires Transfer.Faithful(received, file) && |file| <= Sender.MaxFileSize
    requires HasRange(received, 0, ChunkCount(|file|))
    requires fuel > 0
    ensures Run(Idle, [Sender.FinPacket], received, buffer, fuel) == (Delivered(file), [Sender.FinPacket])
  {
    hide Pack, Unpack, Crc32.ChecksumIEEE, Receiver.OnDatagram, Decode, Receive;
    Transfer.FinCompletesWithFile(received, buffer, file);
  }

  /** The session a GET for a readable, non-empty file starts is a lossless transfer
      with nothing acknowledged yet. */
  lemma StartIsLockstep(file: seq<byte>)
    requires 0 < |file| <= Sender.MaxFileSize
    ensures Sender.StartSession(Some(file)).Serving?
    ensures var r := Sender.StartSession(Some(file)); Lockstep(r.state, 0, map[], r.sent)
  {
    hide Sender.DataPacket, Sender.Inv, Sender.StartSession;
    Sender.StartSessionFillsWindow(file);
    var r := Sender.StartSession(Some(file));
    ChunkCountIsBound(|file|, 0);
    DataRunAt(file, 0, r.state.nextSeq);
    assert r.sent == DataRun(file, 0, r.state.nextSeq);
  }

  /** Over a lossless channel, a request for a readable, non-empty file whose name fits
      in one datagram delivers exactly that file: the requester takes DATA 0, 1, ...,
      n-1 in order and then FIN, where n is the number of payloads. */
  lemma LosslessRequestDelivers(files: map<seq<byte>, seq<byte>>, loopBuffer: Buffer, filename: seq<byte>, fuel: nat)
    requires filename in files && |filename| <= RecvBufferSize - HeaderSize
    requires 0 < |files[filename]| <= Sender.MaxFileSize
    requires fuel > ChunkCount(|files[filename]|)
    ensures ChunkCount(|files[filename]|) <= 0x1_0000_0000
    ensures Request(files, loopBuffer, filename, fuel)
         == (Delivered(files[filename]), DataRun(files[filename], 0, ChunkCount(|files[filename]|)) + [Sender.FinPacket])
  {
    Transfer.RequestIsServed(loopBuffer, filename);
    var file := files[filename];
    StartIsLockstep(file);
    var r := Sender.StartSession(Some(file));
    LockstepDelivers(r.state, FreshBuffer, 0, map[], FreshBuffer, r.sent, fuel);
  }

  /** A request for a file the server cannot open fails with "File not found" after
      the single ERR packet. */
  lemma MissingFileFails(files: map<seq<byte>, seq<byte>>, loopBuffer: Buffer, filename: seq<byte>, fuel: nat)
    requires filename !in files && |filename| <= RecvBufferSize - HeaderSize
    requires fuel > 0
    ensures Request(files, loopBuffer, filename, fuel) == (Failed(Sender.FileNotFound), [Sender.ErrPacket])
  {
    Transfer.RequestIsServed(loopBuffer, filename);
    Transfer.MissingFileReported(map[], FreshBuffer);
    assert Request(files, loopBuffer, filename, fuel) == Run(Idle, [Sender.ErrPacket], map[], FreshBuffer, fuel);
    IdleRunFails(fuel);
  }

  /** ERR is the last packet the requester takes. */
  lemma IdleRunFails(fuel: nat)
    requires fuel > 0
    ensures Run(Idle, [Sender.ErrPacket], map[], FreshBuffer, fuel) == (Failed(Sender.FileNotFound), [Sender.ErrPacket])
  {
    hide Pack, Receiver.OnDatagram, Unpack, Crc32.ChecksumIEEE;
    Transfer.MissingFileReported(map[], FreshBuffer);
  }

  /** A request for an empty file stalls: the server sends no DATA and waits for a
      datagram before it sends FIN, and the requester has nothing to answer, so its read
      deadline expires. */
  lemma EmptyFileStalls(files: map<seq<byte>, seq<byte>>, loopBuffer: Buffer, filename: seq<byte>, fuel: nat)
    requires filename in files && files[filename] == [] && |filename| <= RecvBufferSize - HeaderSize
    ensures Request(files, loopBuffer, filename, fuel) == (Stalled, [])
  {
    hide Pack, Unpack, Crc32.ChecksumIEEE;
    Transfer.RequestIsServed(loopBuffer, filename);
    Sender.EmptyFileFinishesOnFirstDatagram(FreshBuffer, []);
  }

  /** A 3000-byte file travels as DATA 0 and 1 with 1024 bytes each and DATA 2 with the
      last 952 bytes, then FIN, and arrives byte for byte. */
  lemma ThreeThousandByteFile(files: map<seq<byte>, seq<byte>>, loopBuffer: Buffer, filename: seq<byte>, fuel: nat)
    requires filename in files && |files[filename]| == 3000 && |filename| <= RecvBufferSize - HeaderSize
    requires fuel > 3
    ensures Request(files, loopBuffer, filename, fuel)
         == (Delivered(files[filename]),
             [Pack(MsgTypeData, 0, files[filename][..1024]), Pack(MsgTypeData, 1, files[filename][1024..2048]),
              Pack(MsgTypeData, 2, files[filename][2048..]), Sender.FinPacket])
  {
    hide Request, Sender.DataPacket;
    var file := files[filename];
    assert ChunkCount(3000) == 3;
    LosslessRequestDelivers(files, loopBuffer, filename, fuel);
    DataRunAt(file, 0, 3);
    var d := DataRun(file, 0, 3);
    assert d == [d[0], d[1], d[2]];
    assert d[0] == Sender.DataPacket(file, 0) && d[1] == Sender.DataPacket(file, 1) && d[2] == Sender.DataPacket(file, 2);
    ThreeChunks(file);
    assert d + [Sender.FinPacket] == [d[0], d[1], d[2], Sender.FinPacket];
  }

  /** The three DATA packets of a 3000-byte file. */
  lemma ThreeChunks(file: seq<byte>)
    requires |file| == 3000
    ensures Sender.DataPacket(file, 0) == Pack(MsgTypeData, 0, file[..1024])
    ensures Sender.DataPacket(file, 1) == Pack(MsgTypeData, 1, file[1024..2048])
    ensures Sender.DataPacket(file, 2) == Pack(MsgTypeData, 2, file[2048..])
  {
    hide Pack, Unpack, Crc32.ChecksumIEEE;
    assert Chunk(file, 0) == file[..1024];
    assert Chunk(file, 1) == file[1024..2048];
    assert Chunk(file, 2) == file[2048..];
  }
}

=== FILE: packing.dfy ===
/** The wire codec of the `protocol` package: an 11-byte header (type, sequence number,
    payload length, payload checksum; integers big-endian) followed by the payload. */
module Packing {
  import opened Bytes
  import Crc32

  const HeaderSize: nat := 11

  const MsgTypeGet: byte := 0x01
  const MsgTypeData: byte := 0x02
  const MsgTypeAck: byte := 0x03
  const MsgTypeNak: byte := 0x04
  const MsgTypeErr: byte := 0x05
  const MsgTypeFin: byte := 0x06

  datatype Header = Header(msgType: byte, seqNum: uint32, length: uint16, checksum: uint32)

  /** The zero value `var h Header` that `Unpack` returns beside its error. */
  const ZeroHeader := Header(0, 0, 0, 0)

  /** What a call of `Unpack` produces: a header and payload, the "packet too short"
      error, or a run-time panic of the unchecked payload slice. */
  datatype UnpackResult =
    | Unpacked(header: Header, payload: seq<byte>)
    | TooShort
    | SliceOutOfRange

  /** The header a caller that discards `Unpack`'s error goes on to inspect; a panic has
      no header, as the caller never resumes. */
  function HeaderOrZero(r: UnpackResult): (h: Header)
    requires !r.SliceOutOfRange?
  {
    if r.Unpacked? then r.header else ZeroHeader
  }

  /** `Pack`: always succeeds (its `error` result is always nil, so it is dropped here).
      The length field holds `len(data)` truncated to 16 bits. */
  function Pack(msgType: byte, msgSeq: uint32, data: seq<byte>): (packet: seq<byte>)
    ensures |packet| == HeaderSize + |data|
    ensures packet[0] == msgType
    ensures ReadUint32(packet, 1) == msgSeq
    ensures ReadUint16(packet, 5) == |data| % 0x1_0000
    ensures ReadUint32(packet, 7) == Crc32.ChecksumIEEE(data)
    ensures packet[HeaderSize..] == data
  {
    hide Crc32.ChecksumIEEE;
    [msgType] + Uint32ToBE(msgSeq) + Uint16ToBE(|data| % 0x1_0000)
      + Uint32ToBE(Crc32.ChecksumIEEE(data)) + data
  }

  /** `Unpack(s)` on a slice `s` of length `n` whose backing array holds `backing` from
      `s[0]` to the end of the slice's capacity. It rejects slices shorter than the header,
      then reads the header fields at offsets 0, 1, 5 and 7 and slices `s[11 : 11+Length]`
      without comparing the declared length with `n`. Go bounds that slice expression by
      the capacity, not the length: it panics only when `11 + Length` exceeds the
      capacity, and a length that overruns `n` but not the capacity takes the bytes the
      backing array holds beyond `n`. */
  function Unpack(backing: seq<byte>, n: nat): (r: UnpackResult)
    requires n <= |backing|
    ensures r.TooShort? <==> n < HeaderSize
    ensures r.SliceOutOfRange? <==>
              n >= HeaderSize && HeaderSize + ReadUint16(backing, 5) > |backing|
    ensures r.Unpacked? ==>
              && r.header.msgType == backing[0]
              && r.header.seqNum == ReadUint32(backing, 1)
              && r.header.length == ReadUint16(backing, 5)
              && r.header.checksum == ReadUint32(backing, 7)
              && |r.payload| == r.header.length
              && r.payload == backing[HeaderSize .. HeaderSize + r.header.length]
  {
    if n < HeaderSize then TooShort
    else
      var h := Header(backing[0], ReadUint32(backing, 1), ReadUint16(backing, 5), ReadUint32(backing, 7));
      if HeaderSize + h.length > |backing| then SliceOutOfRange
      else Unpacked(h, backing[HeaderSize .. HeaderSize + h.length])
  }

  /** Round trip: a payload that fits the 16-bit length field comes back intact, with
      the header `Pack` was given and the checksum of the payload, from any slice that
      holds exactly the packet, whatever lies in its capacity beyond. */
  lemma UnpackPack(msgType: byte, msgSeq: uint32, data: seq<byte>, backing: seq<byte>)
    requires |data| < 0x1_0000
    requires HeaderSize + |data| <= |backing|
    requires backing[.. HeaderSize + |data|] == Pack(msgType, msgSeq, data)
    ensures Unpack(backing, HeaderSize + |data|)
         == Unpacked(Header(msgType, msgSeq, |data|, Crc32.ChecksumIEEE(data)), data)
  {
    hide Crc32.ChecksumIEEE;
    var p := Pack(msgType, msgSeq, data);
    assert ReadUint32(backing, 1) == ReadUint32(p, 1);
    assert ReadUint16(backing, 5) == ReadUint16(p, 5);
    assert ReadUint32(backing, 7) == ReadUint32(p, 7);
    assert backing[HeaderSize .. HeaderSize + |data|] == p[HeaderSize..];
  }

  /** The length field wraps: a payload of 65536 bytes or more is encoded with length
      `len % 65536`, and `Unpack` hands back only that many leading bytes of it. */
  lemma UnpackPackWraps(msgType: byte, msgSeq: uint32, data: seq<byte>)
    requires |data| >= 0x1_0000
    ensures Unpack(Pack(msgType, msgSeq, data), HeaderSize + |data|)
         == Unpacked(Header(msgType, msgSeq, |data| % 0x1_0000, Crc32.ChecksumIEEE(data)),
                     data[.. |data| % 0x1_0000])
    ensures Unpack(Pack(msgType, msgSeq, data), HeaderSize + |data|).payload != data
  {
    hide Crc32.ChecksumIEEE;
    var p := Pack(msgType, msgSeq, data);
    var n := |data| % 0x1_0000;
    assert p[HeaderSize .. HeaderSize + n] == p[HeaderSize..][..n];
  }

  /** What `Unpack` returns depends only on the header and the `Length` bytes behind it:
      neither the slice length beyond the header nor the bytes after the payload matter. */
  lemma UnpackReadsHeaderAndPayloadOnly(b1: seq<byte>, n1: nat, b2: seq<byte>, n2: nat)
    requires HeaderSize <= n1 <= |b1| && HeaderSize <= n2 <= |b2|
    requires Unpack(b1, n1).Unpacked?
    requires HeaderSize + Unpack(b1, n1).header.length <= |b2|
    requires b2[.. HeaderSize + Unpack(b1, n1).header.length] == b1[.. HeaderSize + Unpack(b1, n1).header.length]
    ensures Unpack(b2, n2) == Unpack(b1, n1)
  {
    var m := HeaderSize + Unpack(b1, n1).header.length;
    assert forall i :: 0 <= i < m ==> b2[i] == b1[i] by {
      forall i | 0 <= i < m ensures b2[i] == b1[i] {
        assert b2[..m][i] == b1[..m][i];
      }
    }
    assert b2[HeaderSize .. m] == b1[HeaderSize .. m];
  }

  /** Converse round trip: a decoded slice whose length field covers exactly the rest of
      the slice is re-encoded byte for byte by `Pack`, provided its checksum field is the
      payload's checksum. */
  lemma PackUnpack(backing: seq<byte>, n: nat)
    requires n <= |backing|
    requires Unpack(backing, n).Unpacked?
    requires n == HeaderSize + Unpack(backing, n).header.length
    requires Unpack(backing, n).header.checksum == Crc32.ChecksumIEEE(Unpack(backing, n).payload)
    ensures Pack(Unpack(backing, n).header.msgType, Unpack(backing, n).header.seqNum, Unpack(backing, n).payload)
         == backing[.. n]
  {
    hide Crc32.ChecksumIEEE, Unpack, ReadUint32, ReadUint16;
    var packet := backing[.. n];
    var u := Unpack(backing, n);
    Uint32BytesRoundTrip(backing, 1);
    Uint16BytesRoundTrip(backing, 5);
    Uint32BytesRoundTrip(backing, 7);
    assert packet == [backing[0]] + backing[1 .. 5] + backing[5 .. 7] + backing[7 .. 11] + backing[HeaderSize .. n];
  }
}

=== FILE: receiver.dfy ===
/** The requesting side (`requestFile` and `assembleFile` in the client command): send
    GET, then answer each datagram until ERR or FIN ends the request. Sends are returned
    as packet lists; the output file is returned as a byte sequence. */
module Receiver {
  import opened Bytes
  import opened Packing
  import opened Chunks
  import opened Datagrams
  import Crc32

  /** The first packet of a request: GET, sequence number 0, the file name as payload. */
  function RequestPacket(filename: seq<byte>): (pkt: seq<byte>)
    ensures |pkt| == HeaderSize + |filename| && pkt[0] == MsgTypeGet && ReadUint32(pkt, 1) == 0
    ensures ReadUint16(pkt, 5) == |filename| % 0x1_0000 && pkt[HeaderSize ..] == filename
  {
    Pack(MsgTypeGet, 0, filename)
  }

  /** The GET decodes to type GET, sequence number 0 and the name, for any name that
      fits the length field. */
  lemma RequestPacketDecodes(filename: seq<byte>)
    requires |filename| < 0x1_0000
    ensures Unpack(RequestPacket(filename), |RequestPacket(filename)|)
         == Unpacked(Header(MsgTypeGet, 0, |filename|, Crc32.ChecksumIEEE(filename)), filename)
  {
    hide Pack, Crc32.ChecksumIEEE;
    UnpackPack(MsgTypeGet, 0, filename, RequestPacket(filename));
  }

  /** The acknowledgement of payload `k`: ACK, sequence number `k`, no payload. */
  function AckPacket(k: uint32): (pkt: seq<byte>)
  {
    Pack(MsgTypeAck, k, [])
  }

  /** The rejection of payload `k`: NAK, sequence number `k`, no payload. */
  function NakPacket(k: uint32): (pkt: seq<byte>)
  {
    Pack(MsgTypeNak, k, [])
  }

  /** The outcome of one message: keep waiting (with the updated chunk map and the
      packets to send), fail with the server's message, or finish with the assembled
      file. */
  datatype ClientStep =
    | Continue(received: map<uint32, seq<byte>>, sent: seq<seq<byte>>)
    | ServerError(message: seq<byte>)
    | Completed(file: seq<byte>)

  /** One iteration of the receive loop on a decoded header and payload. DATA is checked
      against its checksum: a match stores a copy of the payload under its number
      (replacing any earlier one) and is acknowledged, a mismatch is answered by NAK and
      stores nothing. ERR fails the request, FIN assembles the file, anything else is
      ignored. */
  function OnMessage(received: map<uint32, seq<byte>>, h: Header, payload: seq<byte>): (r: ClientStep)
    ensures r.ServerError? <==> h.msgType == MsgTypeErr
    ensures r.Completed? <==> h.msgType == MsgTypeFin
    ensures r.ServerError? ==> r.message == payload
    ensures r.Completed? ==> r.file == AssembleFile(received)
    ensures h.msgType == MsgTypeData && Crc32.ChecksumIEEE(payload) != h.checksum ==>
              r == Continue(received, [NakPacket(h.seqNum)])
    ensures h.msgType == MsgTypeData && Crc32.ChecksumIEEE(payload) == h.checksum ==>
              r == Continue(received[h.seqNum := payload], [AckPacket(h.seqNum)])
    ensures h.msgType !in {MsgTypeData, MsgTypeErr, MsgTypeFin} ==> r == Continue(received, [])
  {
    if h.msgType == MsgTypeData then
      if Crc32.ChecksumIEEE(payload) != h.checksum then Continue(received, [NakPacket(h.seqNum)])
      else Continue(received[h.seqNum := payload], [AckPacket(h.seqNum)])
    else if h.msgType == MsgTypeErr then ServerError(payload)
    else if h.msgType == MsgTypeFin then Completed(AssembleFile(received))
    else Continue(received, [])
  }

  /** The result of one received datagram: a step, or a crash when decoding it panics. */
  datatype Inbound = Handled(step: ClientStep) | Crashed

  /** One datagram read into the request's receive buffer. `Unpack`'s error is
      discarded, so a datagram shorter than a header acts as a message of type 0 with no
      payload, which is ignored. Decoding panics exactly when the length field exceeds the
      buffer's room; a length field that overruns the datagram but not the buffer yields a
      payload padded with the buffer's stale bytes. */
  function OnDatagram(received: map<uint32, seq<byte>>, buffer: Buffer, dgram: seq<byte>): (r: Inbound)
    ensures r.Crashed? <==>
              |dgram| >= HeaderSize && ReadUint16(dgram, 5) > RecvBufferSize - HeaderSize
    ensures |dgram| < HeaderSize ==> r == Handled(Continue(received, []))
    ensures Decode(buffer, dgram).Unpacked? ==>
              r == Handled(OnMessage(received, Decode(buffer, dgram).header, Decode(buffer, dgram).payload))
    ensures r.Handled? && r.step.Completed? ==> |dgram| >= HeaderSize && dgram[0] == MsgTypeFin
    ensures r.Handled? && r.step.ServerError? ==> |dgram| >= HeaderSize && dgram[0] == MsgTypeErr
  {
    match Decode(buffer, dgram)
    case SliceOutOfRange => Crashed
    case TooShort => Handled(OnMessage(received, ZeroHeader, []))
    case Unpacked(h, payload) => Handled(OnMessage(received, h, payload))
  }

  // ---------------------------------------------------------------------------------
  // Reassembly

  /** The loop of `assembleFile` from sequence number `k` on: append chunk `k` while it
      is present. The loop counter is a `uint32`; the model stops after 2^32 - 1. */
  function AssembleFrom(chunks: map<uint32, seq<byte>>, k: nat): (out: seq<byte>)
    requires k <= 0x1_0000_0000
    decreases 0x1_0000_0000 - k
  {
    if k < 0x1_0000_0000 && k in chunks then chunks[k] + AssembleFrom(chunks, k + 1) else []
  }

  /** The bytes `assembleFile` writes: chunks 0, 1, 2, ... up to the first missing
      number. The call always reports success. */
  function AssembleFile(chunks: map<uint32, seq<byte>>): (out: seq<byte>)
    ensures out == ConcatRange(chunks, 0, FirstGap(chunks))
  {
    AssembleFromIsRange(chunks, 0, FirstGap(chunks));
    AssembleFrom(chunks, 0)
  }

  /** `g` is the first sequence number missing from `chunks` (2^32 if none is). */
  ghost predicate IsFirstGap(chunks: map<uint32, seq<byte>>, g: nat)
  {
    && g <= 0x1_0000_0000
    && HasRange(chunks, 0, g)
    && (g < 0x1_0000_0000 ==> g !in chunks)
  }

  /** The first missing sequence number at or above `k`, given that none below `k` is
      missing. */
  ghost function FirstGapFrom(chunks: map<uint32, seq<byte>>, k: nat): (g: nat)
    requires k <= 0x1_0000_0000
    requires HasRange(chunks, 0, k)
    ensures k <= g && IsFirstGap(chunks, g)
    decreases 0x1_0000_0000 - k
  {
    if k < 0x1_0000_0000 && k in chunks then FirstGapFrom(chunks, k + 1) else k
  }

  ghost function FirstGap(chunks: map<uint32, seq<byte>>): (g: nat)
    ensures IsFirstGap(chunks, g)
  {
    FirstGapFrom(chunks, 0)
  }

  /** Splitting the first chunk off a range. */
  lemma {:induction false} ConcatRangeFront(chunks: map<uint32, seq<byte>>, lo: nat, hi: nat)
    requires lo < hi <= 0x1_0000_0000
    requires HasRange(chunks, lo, hi)
    ensures ConcatRange(chunks, lo, hi) == chunks[lo] + ConcatRange(chunks, lo + 1, hi)
    decreases hi
  {
    if lo + 1 < hi {
      ConcatRangeFront(chunks, lo, hi - 1);
    }
  }

  lemma {:induction false} AssembleFromIsRange(chunks: map<uint32, seq<byte>>, k: nat, g: nat)
    requires IsFirstGap(chunks, g) && k <= g
    ensures AssembleFrom(chunks, k) == ConcatRange(chunks, k, g)
    decreases g - k
  {
    if k < g {
      AssembleFromIsRange(chunks, k + 1, g);
      ConcatRangeFront(chunks, k, g);
    }
  }

  /** `assembleFile` writes chunks[0] ++ chunks[1] ++ ... ++ chunks[g-1], where g is the
      first missing sequence number; chunks after the first gap are dropped. */
  lemma AssembleFileConcatsToFirstGap(chunks: map<uint32, seq<byte>>, g: nat)
    requires IsFirstGap(chunks, g)
    ensures AssembleFile(chunks) == ConcatRange(chunks, 0, g)
  {
    AssembleFromIsRange(chunks, 0, g);
  }

  /** What follows the first gap never reaches the output: two chunk maps that agree
      below a common first gap assemble to the same bytes. */
  lemma AssembleIgnoresChunksAfterGap(c1: map<uint32, seq<byte>>, c2: map<uint32, seq<byte>>, g: nat)
    requires IsFirstGap(c1, g) && IsFirstGap(c2, g)
    requires forall k: uint32 :: k < g ==> c1[k] == c2[k]
    ensures AssembleFile(c1) == AssembleFile(c2)
  {
    AssembleFileConcatsToFirstGap(c1, g);
    AssembleFileConcatsToFirstGap(c2, g);
    ConcatRangeAgree(c1, c2, 0, g);
  }

  lemma {:induction false} ConcatRangeAgree(c1: map<uint32, seq<byte>>, c2: map<uint32, seq<byte>>, lo: nat, hi: nat)
    requires hi <= 0x1_0000_0000
    requires HasRange(c1, lo, hi) && HasRange(c2, lo, hi)
    requires forall k: uint32 :: lo <= k < hi ==> c1[k] == c2[k]
    ensures ConcatRange(c1, lo, hi) == ConcatRange(c2, lo, hi)
    decreases hi
  {
    if lo < hi {
      ConcatRangeAgree(c1, c2, lo, hi - 1);
    }
  }
}

=== FILE: sender.dfy ===
/** The serving side of one transfer (`handleGet` in the server command) and the serving
    loop's recognition of a GET. Sends are returned as packet lists and each inbound
    datagram is an argument of a step function; the file being served is a byte
    sequence with a read cursor, read with `io.ReadFull` semantics. */
module Sender {
  import opened Wrappers
  import opened Bytes
  import opened Packing
  import opened Chunks
  import opened Datagrams
  import Crc32

  /** Most DATA packets sent before the first control message is awaited. */
  const WindowSize: nat := 5

  /** Largest file whose payload numbers all fit in 32 bits below 2^32 - 1, so that
      `nextSeq` never wraps around during its transfer. */
  const MaxFileSize: nat := 1024 * 0xFFFF_FFFF

  const FileNotFound: seq<byte> := Ascii("File not found")

  /** The one packet answering a GET for a file that cannot be opened. */
  const ErrPacket: seq<byte> := Pack(MsgTypeErr, 0, FileNotFound)

  /** The packet that ends a transfer: sequence number 0 and no payload. */
  const FinPacket: seq<byte> := Pack(MsgTypeFin, 0, [])

  /** The DATA packet for payload number `k` of `file`. */
  function DataPacket(file: seq<byte>, k: uint32): (pkt: seq<byte>)
  {
    Pack(MsgTypeData, k, Chunk(file, k))
  }

  /** `window` maps an unacknowledged sequence number to the exact bytes sent for it. */
  datatype SenderState = SenderState(
    file: seq<byte>,
    cursor: nat,
    window: map<uint32, seq<byte>>,
    nextSeq: uint32)

  /** `io.ReadFull` into a fresh `PayloadSize`-byte buffer: the next
      min(PayloadSize, remaining) bytes of the file, nothing at end of file. */
  function ReadFull(file: seq<byte>, cursor: nat): (chunk: seq<byte>)
    ensures cursor >= |file| ==> chunk == []
    ensures cursor < |file| ==> |chunk| == Min(PayloadSize, |file| - cursor)
    ensures cursor + |chunk| <= |file| || chunk == []
    ensures chunk != [] ==> chunk == file[cursor .. cursor + |chunk|]
  {
    if cursor >= |file| then [] else file[cursor .. Min(cursor + PayloadSize, |file|)]
  }

  /** Packs `chunk` as DATA under `nextSeq`, keeps the bytes in the window for
      retransmission and advances the cursor and `nextSeq`. The packet sent is the one
      stored, and no other window entry changes. */
  function SendChunk(s: SenderState, chunk: seq<byte>): (r: (SenderState, seq<byte>))
    ensures r.0.file == s.file && r.0.cursor == s.cursor + |chunk|
    ensures r.0.nextSeq == Inc32(s.nextSeq)
    ensures r.0.window.Keys == s.window.Keys + {s.nextSeq} && r.0.window[s.nextSeq] == r.1
    ensures forall k :: k in s.window && k != s.nextSeq ==> r.0.window[k] == s.window[k]
    ensures |chunk| < 0x1_0000 ==>
              Unpack(r.1, |r.1|) == Unpacked(Header(MsgTypeData, s.nextSeq, |chunk|, Crc32.ChecksumIEEE(chunk)), chunk)
  {
    var pkt := Pack(MsgTypeData, s.nextSeq, chunk);
    assert |chunk| < 0x1_0000 ==> Unpack(pkt, |pkt|) == Unpacked(Header(MsgTypeData, s.nextSeq, |chunk|, Crc32.ChecksumIEEE(chunk)), chunk) by {
      if |chunk| < 0x1_0000 {
        UnpackPack(MsgTypeData, s.nextSeq, chunk, pkt);
      }
    }
    (s.(cursor := s.cursor + |chunk|, window := s.window[s.nextSeq := pkt], nextSeq := Inc32(s.nextSeq)), pkt)
  }

  /** The initial fill loop: up to `slots` reads, stopping at the first read that
      yields no bytes; each non-empty read is sent as one DATA packet. */
  function FillWindow(s: SenderState, slots: nat): (r: (SenderState, seq<seq<byte>>))
    ensures |r.1| <= slots
    ensures r.0.file == s.file
    decreases slots
  {
    if slots == 0 then (s, [])
    else
      var chunk := ReadFull(s.file, s.cursor);
      if |chunk| == 0 then (s, [])
      else
        var (s1, pkt) := SendChunk(s, chunk);
        var (s2, rest) := FillWindow(s1, slots - 1);
        (s2, [pkt] + rest)
  }

  /** What `handleGet` does before it waits for the first control message. */
  datatype Session =
    | Refused(sent: seq<seq<byte>>)
    | Serving(state: SenderState, sent: seq<seq<byte>>)

  /** Opening the requested file: `file` is its contents, or `None` when it cannot be
      opened. A missing file is answered by exactly one ERR packet and nothing else. */
  function StartSession(file: Option<seq<byte>>): (r: Session)
    ensures r.Refused? <==> file.None?
    ensures r.Refused? ==> r.sent == [ErrPacket]
    ensures r.Serving? ==> r.state.file == file.value && |r.sent| <= WindowSize
  {
    match file
    case None => Refused([ErrPacket])
    case Some(contents) =>
      var (s, sent) := FillWindow(SenderState(contents, 0, map[], 0), WindowSize);
      Serving(s, sent)
  }

  /** ACK: forget the acknowledged packet (nothing happens if it is not in the window),
      then read one more payload and send it if the read yields any bytes. */
  function OnAck(s: SenderState, acked: uint32): (r: (SenderState, seq<seq<byte>>))
    ensures r.0.file == s.file
    ensures acked !in r.0.window || acked == s.nextSeq
    ensures |r.1| <= 1
    ensures |r.1| == 1 <==> s.cursor < |s.file|
    ensures |r.1| == 0 ==> r.0 == s.(window := s.window - {acked})
    ensures |r.1| == 1 ==>
              && r.1[0] == Pack(MsgTypeData, s.nextSeq, ReadFull(s.file, s.cursor))
              && r.0.window == (s.window - {acked})[s.nextSeq := r.1[0]]
              && r.0.nextSeq == Inc32(s.nextSeq)
  {
    var s1 := s.(window := s.window - {acked});
    var chunk := ReadFull(s.file, s.cursor);
    if |chunk| > 0 then
      var (s2, pkt) := SendChunk(s1, chunk);
      (s2, [pkt])
    else (s1, [])
  }

  /** NAK: re-send the stored bytes for that sequence number, if it is still in the
      window; the state is not touched. */
  function OnNak(s: SenderState, rejected: uint32): (sent: seq<seq<byte>>)
    ensures rejected in s.window ==> sent == [s.window[rejected]]
    ensures rejected !in s.window ==> sent == []
  {
    if rejected in s.window then [s.window[rejected]] else []
  }

  /** The outcome of handling one inbound control message. */
  datatype Step = Step(state: SenderState, sent: seq<seq<byte>>, finSent: bool)

  /** One iteration of the wait loop on a decoded header: ACK and NAK are handled, any
      other type is ignored, and then FIN is sent, ending the session, exactly when the
      window is empty. */
  function OnMessage(s: SenderState, h: Header): (r: Step)
    ensures r.state.file == s.file
    ensures r.finSent <==> |r.state.window| == 0
    ensures r.finSent ==> |r.sent| > 0 && r.sent[|r.sent| - 1] == FinPacket
    ensures h.msgType != MsgTypeAck ==> r.state == s
    ensures h.msgType == MsgTypeNak ==>
              r.sent == OnNak(s, h.seqNum) + (if |s.window| == 0 then [FinPacket] else [])
    ensures h.msgType != MsgTypeAck && h.msgType != MsgTypeNak ==>
              r.sent == (if |s.window| == 0 then [FinPacket] else [])
  {
    var (s1, sent) :=
      if h.msgType == MsgTypeAck then OnAck(s, h.seqNum)
      else if h.msgType == MsgTypeNak then (s, OnNak(s, h.seqNum))
      else (s, []);
    if |s1.window| == 0 then Step(s1, sent + [FinPacket], true)
    else Step(s1, sent, false)
  }

  /** The result of one received datagram: a step, or a crash when decoding it panics. */
  datatype Inbound = Handled(step: Step) | Crashed

  /** One datagram read into the session's receive buffer and decoded with `Unpack`,
      whose error is discarded, so a datagram shorter than a header acts as a message of
      type 0. Only the header matters to the session, so the buffer's stale bytes never
      do; decoding panics exactly when the length field exceeds the buffer's room. */
  function OnDatagram(s: SenderState, buffer: Buffer, dgram: seq<byte>): (r: Inbound)
    ensures r.Crashed? <==>
              |dgram| >= HeaderSize && ReadUint16(dgram, 5) > RecvBufferSize - HeaderSize
    ensures |dgram| < HeaderSize ==> r == Handled(OnMessage(s, ZeroHeader))
    ensures r.Handled? && |dgram| >= HeaderSize ==>
              r.step == OnMessage(s, Header(dgram[0], ReadUint32(dgram, 1), ReadUint16(dgram, 5), ReadUint32(dgram, 7)))
  {
    var u := Decode(buffer, dgram);
    if u.SliceOutOfRange? then Crashed else Handled(OnMessage(s, HeaderOrZero(u)))
  }

  /** The serving loop's verdict on one datagram. */
  datatype Request = Ignored | Serve(filename: seq<byte>) | DispatchCrashed

  /** A datagram read into the serving loop's buffer that decodes as GET starts a
      transfer of the file its payload names; a datagram shorter than a header, and every
      type but GET, is skipped. Decoding panics exactly when the length field exceeds the
      buffer's room. The name is the datagram's bytes behind the header as far as the
      length field reaches, padded from the buffer's stale bytes when it reaches further. */
  function Dispatch(buffer: Buffer, dgram: seq<byte>): (r: Request)
    ensures r.DispatchCrashed? <==>
              |dgram| >= HeaderSize && ReadUint16(dgram, 5) > RecvBufferSize - HeaderSize
    ensures r.Serve? <==> |dgram| >= HeaderSize && dgram[0] == MsgTypeGet && !r.DispatchCrashed?
    ensures r.Serve? ==> |r.filename| == ReadUint16(dgram, 5)
    ensures r.Serve? && HeaderSize + |r.filename| <= |dgram| ==>
              r.filename == dgram[HeaderSize .. HeaderSize + |r.filename|]
    ensures r.Serve? && HeaderSize + |r.filename| > |dgram| ==>
              r.filename == dgram[HeaderSize ..] + buffer[|dgram| .. HeaderSize + |r.filename|]
  {
    match Decode(buffer, dgram)
    case SliceOutOfRange => DispatchCrashed
    case TooShort => Ignored
    case Unpacked(h, payload) => if h.msgType == MsgTypeGet then Serve(payload) else Ignored
  }

  // ---------------------------------------------------------------------------------
  // Window bookkeeping invariant

  /** What holds between messages: the cursor sits at a payload boundary or at the end
      of the file, `nextSeq` counts the payloads read so far, and the window holds, under
      numbers already used, the exact DATA packets for those payloads. */
  ghost predicate Inv(s: SenderState)
  {
    && |s.file| <= MaxFileSize
    && s.cursor == Min(s.nextSeq * 1024, |s.file|)
    && (s.nextSeq == 0 || (s.nextSeq - 1) * 1024 < |s.file|)
    && forall k :: k in s.window ==> k < s.nextSeq && s.window[k] == DataPacket(s.file, k)
  }

  /** Under the invariant, the next read returns payload number `nextSeq`, and it is
      empty exactly when every payload has been read. */
  lemma ReadIsNextChunk(s: SenderState)
    requires Inv(s)
    ensures ReadFull(s.file, s.cursor) == Chunk(s.file, s.nextSeq)
    ensures ReadFull(s.file, s.cursor) == [] <==> s.cursor == |s.file|
    ensures s.cursor < |s.file| <==> s.nextSeq < ChunkCount(|s.file|)
    ensures s.nextSeq <= ChunkCount(|s.file|) <= 0xFFFF_FFFF
  {
    ChunkCountIsBound(|s.file|, s.nextSeq);
    if s.nextSeq > 0 {
      ChunkCountIsBound(|s.file|, s.nextSeq - 1);
    }
    ChunkCountIsBound(|s.file|, 0xFFFF_FFFF);
  }

  /** Sending the next payload keeps the invariant and uses the number `nextSeq`, which
      is above every number still in the window. */
  lemma SendNextChunkKeepsInv(s: SenderState)
    requires Inv(s)
    requires s.cursor < |s.file|
    ensures forall k :: k in s.window ==> k < s.nextSeq
    ensures SendChunk(s, ReadFull(s.file, s.cursor)).1 == DataPacket(s.file, s.nextSeq)
    ensures Inv(SendChunk(s, ReadFull(s.file, s.cursor)).0)
    ensures SendChunk(s, ReadFull(s.file, s.cursor)).0.nextSeq == s.nextSeq + 1
  {
    hide Pack, Crc32.ChecksumIEEE;
    var chunk := ReadFull(s.file, s.cursor);
    ReadIsNextChunk(s);
    var pkt := DataPacket(s.file, s.nextSeq);
    var s1 := SenderState(s.file, s.cursor + |chunk|, s.window[s.nextSeq := pkt], s.nextSeq + 1);
    assert SendChunk(s, chunk) == (s1, pkt);
  }

  /** One iteration of the fill loop: nothing more once the slots or the file run out,
      otherwise the next payload goes out ahead of the rest of the fill. */
  lemma FillWindowStep(s: SenderState, slots: nat)
    ensures slots == 0 || s.cursor >= |s.file| ==> FillWindow(s, slots) == (s, [])
    ensures slots > 0 && s.cursor < |s.file| ==>
              var (s1, pkt) := SendChunk(s, ReadFull(s.file, s.cursor));
              FillWindow(s, slots) == (FillWindow(s1, slots - 1).0, [pkt] + FillWindow(s1, slots - 1).1)
  {
    hide Pack, Crc32.ChecksumIEEE;
  }

  /** The initial fill keeps the invariant, advances `nextSeq` by one per packet sent,
      adds exactly the numbers it used to the window, and sends fewer packets than it
      has slots only once the file is exhausted. */
  lemma {:induction false} FillWindowKeepsInv(s: SenderState, slots: nat)
    requires Inv(s)
    ensures Inv(FillWindow(s, slots).0)
    ensures FillWindow(s, slots).0.nextSeq == s.nextSeq + |FillWindow(s, slots).1|
    ensures |FillWindow(s, slots).1| < slots ==> FillWindow(s, slots).0.cursor == |s.file|
    ensures forall k :: k in FillWindow(s, slots).0.window <==>
              k in s.window || s.nextSeq <= k < FillWindow(s, slots).0.nextSeq
    decreases slots
  {
    hide FillWindow, SendChunk, ReadFull, Pack, DataPacket, Chunk, Crc32.ChecksumIEEE;
    FillWindowStep(s, slots);
    if slots > 0 && s.cursor < |s.file| {
      SendNextChunkKeepsInv(s);
      var s1 := SendChunk(s, ReadFull(s.file, s.cursor)).0;
      FillWindowKeepsInv(s1, slots - 1);
    }
  }

  /** The initial fill sends payloads `nextSeq`, `nextSeq + 1`, ... in order. */
  lemma {:induction false} FillWindowSendsNextChunks(s: SenderState, slots: nat)
    requires Inv(s)
    ensures FillWindow(s, slots).0.nextSeq == s.nextSeq + |FillWindow(s, slots).1|
    ensures forall i :: 0 <= i < |FillWindow(s, slots).1| ==>
              FillWindow(s, slots).1[i] == DataPacket(s.file, s.nextSeq + i)
    decreases slots
  {
    hide FillWindow, SendChunk, ReadFull, Pack, DataPacket, Chunk, Inv, Crc32.ChecksumIEEE;
    FillWindowStep(s, slots);
    FillWindowKeepsInv(s, slots);
    if slots > 0 && s.cursor < |s.file| {
      SendNextChunkKeepsInv(s);
      var (s1, pkt) := SendChunk(s, ReadFull(s.file, s.cursor));
      FillWindowSendsNextChunks(s1, slots - 1);
      PrependNextPacket(s.file, s.nextSeq, pkt, FillWindow(s1, slots - 1).1);
    }
  }

  /** Packets for consecutive numbers stay consecutive when the packet for the number
      just below is put in front. */
  lemma PrependNextPacket(file: seq<byte>, n: uint32, pkt: seq<byte>, rest: seq<seq<byte>>)
    requires pkt == DataPacket(file, n)
    requires n + |rest| < 0x1_0000_0000
    requires forall i :: 0 <= i < |rest| ==> rest[i] == DataPacket(file, n + 1 + i)
    ensures forall i :: 0 <= i < |rest| + 1 ==> ([pkt] + rest)[i] == DataPacket(file, n + i)
  {
    hide DataPacket;
    forall i | 0 <= i < |rest| + 1
      ensures ([pkt] + rest)[i] == DataPacket(file, n + i)
    {
      if i > 0 {
        assert ([pkt] + rest)[i] == rest[i - 1];
      }
    }
  }

  /** The initial fill sends as many packets as the slots allow and the file still
      holds. */
  lemma FillWindowCount(s: SenderState, slots: nat)
    requires Inv(s)
    ensures |FillWindow(s, slots).1| == Min(slots, ChunkCount(|s.file|) - s.nextSeq)
  {
    hide Pack, Crc32.ChecksumIEEE;
    FillWindowKeepsInv(s, slots);
    ReadIsNextChunk(FillWindow(s, slots).0);
    ReadIsNextChunk(s);
  }

  /** A served file starts with DATA packets 0, 1, ..., k-1, where k is the smaller of
      the window size and the number of payloads, and exactly those are outstanding. */
  lemma StartSessionFillsWindow(file: seq<byte>)
    requires |file| <= MaxFileSize
    ensures StartSession(Some(file)).Serving?
    ensures var r := StartSession(Some(file));
      && Inv(r.state)
      && r.state.nextSeq == |r.sent|
      && |r.sent| == Min(WindowSize, ChunkCount(|file|))
      && (forall i :: 0 <= i < |r.sent| ==> r.sent[i] == DataPacket(file, i))
      && r.state.window.Keys == SeqNumbersBelow(|r.sent|)
      && |r.state.window| == |r.sent| <= WindowSize
  {
    hide Pack, Crc32.ChecksumIEEE;
    var s0 := SenderState(file, 0, map[], 0);
    FillWindowKeepsInv(s0, WindowSize);
    FillWindowSendsNextChunks(s0, WindowSize);
    FillWindowCount(s0, WindowSize);
    var r := StartSession(Some(file));
    assert r.state.window.Keys == SeqNumbersBelow(|r.sent|);
  }

  /** The sequence numbers 0, ..., n-1. */
  function SeqNumbersBelow(n: nat): (r: set<uint32>)
    requires n <= 0x1_0000_0000
    ensures forall k: uint32 :: k in r <==> k < n
    ensures |r| == n
  {
    if n == 0 then {} else SeqNumbersBelow(n - 1) + {n - 1}
  }

  /** Handling any message keeps the invariant. */
  lemma OnMessageKeepsInv(s: SenderState, h: Header)
    requires Inv(s)
    ensures Inv(OnMessage(s, h).state)
  {
    hide Pack, DataPacket, Chunk, Crc32.ChecksumIEEE;
    if h.msgType == MsgTypeAck {
      var s1 := s.(window := s.window - {h.seqNum});
      assert Inv(s1);
      if s.cursor < |s.file| {
        SendNextChunkKeepsInv(s1);
        assert OnAck(s, h.seqNum).0 == SendChunk(s1, ReadFull(s1.file, s1.cursor)).0;
      } else {
        assert OnAck(s, h.seqNum).0 == s1;
      }
      assert OnMessage(s, h).state == OnAck(s, h.seqNum).0;
    }
  }

  /** Sequence numbers are never reused: a DATA packet created on ACK carries `nextSeq`,
      which is not in the window and exceeds every number there, and `nextSeq` then
      rises by exactly one. */
  lemma AckSendsFreshSeq(s: SenderState, h: Header)
    requires Inv(s) && h.msgType == MsgTypeAck && s.cursor < |s.file|
    ensures s.nextSeq !in s.window
    ensures forall k :: k in s.window ==> k < s.nextSeq
    ensures OnMessage(s, h).sent[0] == DataPacket(s.file, s.nextSeq)
    ensures OnMessage(s, h).state.nextSeq == s.nextSeq + 1
  {
    hide Pack, DataPacket, Chunk, Crc32.ChecksumIEEE;
    var s1 := s.(window := s.window - {h.seqNum});
    assert Inv(s1);
    SendNextChunkKeepsInv(s1);
  }

  /** The window stays within its bound when each ACK names an outstanding packet. */
  lemma AckInWindowKeepsBound(s: SenderState, h: Header)
    requires h.msgType == MsgTypeAck && h.seqNum in s.window
    requires Inv(s) && |s.window| <= WindowSize
    ensures |OnMessage(s, h).state.window| <= WindowSize
  {
    hide Pack, DataPacket, Chunk, ReadFull, SendChunk, Inv, Crc32.ChecksumIEEE;
    var s1 := s.(window := s.window - {h.seqNum});
    assert |s1.window| == |s.window| - 1;
    var (st, sent) := OnAck(s, h.seqNum);
    assert OnMessage(s, h).state == st;
    if |sent| == 1 {
      assert st.window == s1.window[s.nextSeq := sent[0]];
    } else {
      assert st == s1;
    }
  }

  /** An ACK for a number not in the window still reads and sends a new payload, so the
      window grows by one: the bound relies on the peer acknowledging only outstanding
      packets. */
  lemma AckAbsentGrowsWindow(s: SenderState, h: Header)
    requires h.msgType == MsgTypeAck && h.seqNum !in s.window
    requires Inv(s) && s.cursor < |s.file|
    ensures |OnMessage(s, h).state.window| == |s.window| + 1
    ensures |OnMessage(s, h).sent| == 1
  {
    hide Pack, DataPacket, Chunk, ReadFull, Crc32.ChecksumIEEE;
    assert s.window - {h.seqNum} == s.window;
    assert s.nextSeq !in s.window;
    var (st, sent) := OnAck(s, h.seqNum);
    assert |sent| == 1;
    assert st.window == s.window[s.nextSeq := sent[0]];
    assert |st.window| == |s.window| + 1;
    assert OnMessage(s, h).state == st && OnMessage(s, h).sent == sent;
  }

  /** Every packet a step sends is one of the file's genuine DATA packets or FIN. */
  lemma OnMessageSendsGenuinePackets(s: SenderState, h: Header)
    requires Inv(s)
    ensures forall p :: p in OnMessage(s, h).sent ==>
              p == FinPacket || exists k: uint32 :: k < ChunkCount(|s.file|) && p == DataPacket(s.file, k)
  {
    hide Pack, Crc32.ChecksumIEEE, DataPacket, Chunk, ReadFull, SendChunk;
    ReadIsNextChunk(s);
    var r := OnMessage(s, h);
    forall p | p in r.sent
      ensures p == FinPacket || exists k: uint32 :: k < ChunkCount(|s.file|) && p == DataPacket(s.file, k)
    {
      if p != FinPacket {
        if h.msgType == MsgTypeAck {
          var (st, sent) := OnAck(s, h.seqNum);
          assert r.sent == sent || r.sent == sent + [FinPacket];
          assert p in sent;
          AckSendsFreshSeq(s, h);
          assert p == DataPacket(s.file, s.nextSeq);
        } else {
          assert h.seqNum in s.window && p == s.window[h.seqNum];
          ChunkCountIsBound(|s.file|, h.seqNum);
        }
      }
    }
  }

  /** The payloads sent so far, in sequence order, spell out exactly the part of the
      file read so far. */
  lemma SentPayloadsAreConsumedPrefix(s: SenderState)
    requires Inv(s)
    ensures var sent := map k: uint32 | k < s.nextSeq :: Chunk(s.file, k);
      HasRange(sent, 0, s.nextSeq) && ConcatRange(sent, 0, s.nextSeq) == s.file[.. s.cursor]
  {
    ReadIsNextChunk(s);
    var sent := map k: uint32 | k < s.nextSeq :: Chunk(s.file, k);
    ConcatChunks(sent, s.file, s.nextSeq);
  }

  /** An empty file sends no DATA; its transfer ends with FIN in answer to the first
      datagram that arrives, whatever that datagram is, unless decoding it panics. */
  lemma EmptyFileFinishesOnFirstDatagram(buffer: Buffer, dgram: seq<byte>)
    ensures StartSession(Some([])) == Serving(SenderState([], 0, map[], 0), [])
    ensures !OnDatagram(SenderState([], 0, map[], 0), buffer, dgram).Crashed? ==>
              OnDatagram(SenderState([], 0, map[], 0), buffer, dgram)
                == Handled(Step(SenderState([], 0, map[], 0), [FinPacket], true))
  {
  }
}

=== FILE: server_packing.dfy ===
/** The server command's private copy of the codec. Its `Pack` and `Unpack` are written
    out again here as the copy has them, and proved to compute exactly what the
    `protocol` package's versions compute, so the rest of the model uses `Packing` only.
    The copy's `Header` type is the identical struct declared beside it in the server
    command; it is `Packing.Header` here. */
module ServerPacking {
  import opened Bytes
  import Crc32
  import Packing

  function Pack(msgType: byte, msgSeq: uint32, data: seq<byte>): (packet: seq<byte>)
    ensures |packet| == 11 + |data|
    ensures packet[0] == msgType
    ensures ReadUint32(packet, 1) == msgSeq
    ensures ReadUint16(packet, 5) == |data| % 0x1_0000
    ensures ReadUint32(packet, 7) == Crc32.ChecksumIEEE(data)
    ensures packet[11..] == data
  {
    [msgType] + Uint32ToBE(msgSeq) + Uint16ToBE(|data| % 0x1_0000)
      + Uint32ToBE(Crc32.ChecksumIEEE(data)) + data
  }

  /** The copy's `Unpack`, on a slice of length `n` whose backing array holds `backing`
      up to the end of its capacity; as in the canonical one, the payload slice is bounded
      by the capacity only. */
  function Unpack(backing: seq<byte>, n: nat): (r: Packing.UnpackResult)
    requires n <= |backing|
    ensures r.TooShort? <==> n < 11
    ensures r.SliceOutOfRange? <==> n >= 11 && 11 + ReadUint16(backing, 5) > |backing|
    ensures r.Unpacked? ==>
              r.header == Packing.Header(backing[0], ReadUint32(backing, 1), ReadUint16(backing, 5), ReadUint32(backing, 7))
    ensures r.Unpacked? ==> r.payload == backing[11 .. 11 + ReadUint16(backing, 5)]
  {
    if n < 11 then Packing.TooShort
    else
      var h := Packing.Header(backing[0], ReadUint32(backing, 1), ReadUint16(backing, 5),
                              ReadUint32(backing, 7));
      if 11 + h.length > |backing| then Packing.SliceOutOfRange
      else Packing.Unpacked(h, backing[11 .. 11 + h.length])
  }

  /** The copy's `Pack` produces the same bytes as the canonical one. */
  lemma PackAgrees(msgType: byte, msgSeq: uint32, data: seq<byte>)
    ensures Pack(msgType, msgSeq, data) == Packing.Pack(msgType, msgSeq, data)
  {
  }

  /** The copy's `Unpack` gives the same outcome as the canonical one on every input,
      including the error and the panic. */
  lemma UnpackAgrees(backing: seq<byte>, n: nat)
    requires n <= |backing|
    ensures Unpack(backing, n) == Packing.Unpack(backing, n)
  {
  }

  /** Round trip through the copy, for payloads that fit the length field. */
  lemma UnpackPack(msgType: byte, msgSeq: uint32, data: seq<byte>)
    requires |data| < 0x1_0000
    ensures Unpack(Pack(msgType, msgSeq, data), 11 + |data|)
         == Packing.Unpacked(Packing.Header(msgType, msgSeq, |data|, Crc32.ChecksumIEEE(data)), data)
  {
    var p := Pack(msgType, msgSeq, data);
    PackAgrees(msgType, msgSeq, data);
    UnpackAgrees(p, 11 + |data|);
    Packing.UnpackPack(msgType, msgSeq, data, p);
  }
}

=== FILE: transfer.dfy ===
/** The two ends together: what each side makes of the packets the other one builds,
    and what the requester's output file is when the payloads it kept are genuine. */
module Transfer {
  import opened Wrappers
  import opened Bytes
  import opened Packing
  import opened Chunks
  import opened Datagrams
  import Crc32
  import Sender
  import Receiver

  /** A GET whose name fits in one receive buffer reaches the serving loop intact,
      whatever an earlier datagram left in the loop's buffer. */
  lemma RequestIsServed(buffer: Buffer, filename: seq<byte>)
    requires |filename| <= RecvBufferSize - HeaderSize
    ensures Sender.Dispatch(buffer, Receiver.RequestPacket(filename)) == Sender.Serve(filename)
  {
    hide Pack, Crc32.ChecksumIEEE;
    DecodePacked(buffer, MsgTypeGet, 0, filename);
  }

  /** A longer name that can still be sent is cut off by the receive buffer while the
      length field announces all of it, beyond the buffer's capacity, so decoding the GET
      panics. */
  lemma LongRequestCrashesServer(buffer: Buffer, filename: seq<byte>)
    requires RecvBufferSize - HeaderSize < |filename| <= MaxDatagramSize - HeaderSize
    ensures Sender.Dispatch(buffer, Receiver.RequestPacket(filename)).DispatchCrashed?
  {
    hide Pack, Crc32.ChecksumIEEE;
    var p := Receiver.RequestPacket(filename);
    UnpackPack(MsgTypeGet, 0, filename, p);
    assert ReadUint16(p, 5) == |filename|;
  }

  /** The requester's acknowledgement reaches the sender as an ACK for the same number,
      and its rejection as a NAK for it. */
  lemma ControlPacketsReachSender(s: Sender.SenderState, buffer: Buffer, k: uint32)
    ensures Sender.OnDatagram(s, buffer, Receiver.AckPacket(k))
            == Sender.Handled(Sender.OnMessage(s, Header(MsgTypeAck, k, 0, Crc32.ChecksumIEEE([]))))
    ensures Sender.OnDatagram(s, buffer, Receiver.NakPacket(k))
            == Sender.Handled(Sender.OnMessage(s, Header(MsgTypeNak, k, 0, Crc32.ChecksumIEEE([]))))
  {
    hide Pack, Crc32.ChecksumIEEE;
    DecodePacked(buffer, MsgTypeAck, k, []);
    DecodePacked(buffer, MsgTypeNak, k, []);
  }

  /** The length field is never compared with what arrived: an 11-byte datagram that
      announces one payload byte is no panic, and the session takes it as an ACK for 0. */
  lemma ShortAckIsHandled(s: Sender.SenderState, buffer: Buffer)
    ensures Sender.OnDatagram(s, buffer, [3, 0, 0, 0, 0, 0, 1, 0, 0, 0, 0])
         == Sender.Handled(Sender.OnMessage(s, Header(MsgTypeAck, 0, 1, 0)))
  {
    hide Sender.OnDatagram, Sender.OnMessage, Decode, Unpack, Receive, Crc32.ChecksumIEEE;
    var d: seq<byte> := [3, 0, 0, 0, 0, 0, 1, 0, 0, 0, 0];
    assert ReadUint32(d, 1) == 0 && ReadUint16(d, 5) == 1 && ReadUint32(d, 7) == 0;
  }

  /** An 11-byte GET that announces a 5-byte name asks for the file named by the five
      bytes an earlier datagram left in the serving loop's buffer behind the header. */
  lemma ShortGetNamesStaleBytes(buffer: Buffer)
    ensures Sender.Dispatch(buffer, [1, 0, 0, 0, 0, 0, 5, 0, 0, 0, 0]) == Sender.Serve(buffer[11 .. 16])
  {
  }

  /** A DATA datagram that stops short of its length field is checked, and stored when
      the checksum matches, with its payload padded from the request buffer's stale
      bytes. */
  lemma ShortDataIsPadded(received: map<uint32, seq<byte>>, buffer: Buffer, dgram: seq<byte>)
    requires HeaderSize <= |dgram| < HeaderSize + ReadUint16(dgram, 5) <= RecvBufferSize
    requires dgram[0] == MsgTypeData
    ensures Receiver.OnDatagram(received, buffer, dgram)
         == Receiver.Handled(Receiver.OnMessage(received,
              Header(MsgTypeData, ReadUint32(dgram, 1), ReadUint16(dgram, 5), ReadUint32(dgram, 7)),
              dgram[HeaderSize ..] + buffer[|dgram| .. HeaderSize + ReadUint16(dgram, 5)]))
  {
    var u := Decode(buffer, dgram);
    assert u.payload == u.payload[.. |dgram| - HeaderSize] + u.payload[|dgram| - HeaderSize ..];
  }

  /** Every payload the requester holds is the genuine one for its number. */
  ghost predicate Faithful(received: map<uint32, seq<byte>>, file: seq<byte>)
  {
    forall k :: k in received ==> k * PayloadSize < |file| && received[k] == Chunk(file, k)
  }

  /** An intact DATA packet from the sender is stored under its number and acknowledged,
      and storing it keeps the requester's payloads genuine. */
  lemma DataIsStoredAndAcked(received: map<uint32, seq<byte>>, buffer: Buffer, file: seq<byte>, k: uint32)
    requires k * PayloadSize < |file|
    ensures Receiver.OnDatagram(received, buffer, Sender.DataPacket(file, k))
            == Receiver.Handled(Receiver.Continue(received[k := Chunk(file, k)], [Receiver.AckPacket(k)]))
    ensures Faithful(received, file) ==> Faithful(received[k := Chunk(file, k)], file)
  {
    hide Pack, Unpack, Crc32.ChecksumIEEE, Chunk;
    DecodePacked(buffer, MsgTypeData, k, Chunk(file, k));
  }

  /** With genuine payloads and no sequence number beyond the file, the first gap is at
      most the number of payloads. */
  lemma GapWithinFile(received: map<uint32, seq<byte>>, file: seq<byte>)
    requires Faithful(received, file) && |file| <= Sender.MaxFileSize
    ensures Receiver.FirstGap(received) <= ChunkCount(|file|)
    ensures ChunksOf(received, file, Receiver.FirstGap(received))
  {
    var g := Receiver.FirstGap(received);
    var n := ChunkCount(|file|);
    ChunkCountIsBound(|file|, n);
    BeyondFileAbsent(received, file, n);
  }

  /** Genuine payloads exist only for numbers inside the file. */
  lemma BeyondFileAbsent(received: map<uint32, seq<byte>>, file: seq<byte>, k: uint32)
    requires Faithful(received, file) && k * PayloadSize >= |file|
    ensures k !in received
  {
  }

  /** With genuine payloads, `assembleFile` writes a prefix of the file: all of it when
      every payload number of the file is present, and otherwise strictly less. */
  lemma AssembledIsPrefix(received: map<uint32, seq<byte>>, file: seq<byte>)
    requires Faithful(received, file) && |file| <= Sender.MaxFileSize
    ensures |Receiver.AssembleFile(received)| <= |file|
    ensures Receiver.AssembleFile(received) == file[.. |Receiver.AssembleFile(received)|]
    ensures Receiver.AssembleFile(received) == file <==> HasRange(received, 0, ChunkCount(|file|))
  {
    var g := Receiver.FirstGap(received);
    var n := ChunkCount(|file|);
    GapWithinFile(received, file);
    if g > 0 {
      assert (g - 1) as uint32 in received;
    }
    ConcatChunks(received, file, g);
    Receiver.AssembleFileConcatsToFirstGap(received, g);
    ChunkCountIsBound(|file|, n);
    if g < n {
      ChunkCountIsBound(|file|, g);
      assert g !in received;
      assert !HasRange(received, 0, n);
      assert |Receiver.AssembleFile(received)| < |file|;
    }
  }

  /** FIN after every payload has arrived intact completes the request with exactly the
      file's bytes. */
  lemma FinCompletesWithFile(received: map<uint32, seq<byte>>, buffer: Buffer, file: seq<byte>)
    requires Faithful(received, file) && |file| <= Sender.MaxFileSize
    requires HasRange(received, 0, ChunkCount(|file|))
    ensures Receiver.OnDatagram(received, buffer, Sender.FinPacket) == Receiver.Handled(Receiver.Completed(file))
  {
    hide Pack, Crc32.ChecksumIEEE;
    DecodePacked(buffer, MsgTypeFin, 0, []);
    AssembledIsPrefix(received, file);
  }

  /** A request for a file the server cannot open ends on the requester's side with the
      server's "File not found" message. */
  lemma MissingFileReported(received: map<uint32, seq<byte>>, buffer: Buffer)
    ensures Sender.StartSession(None).sent == [Sender.ErrPacket]
    ensures Receiver.OnDatagram(received, buffer, Sender.ErrPacket)
            == Receiver.Handled(Receiver.ServerError(Sender.FileNotFound))
  {
    hide Pack, Crc32.ChecksumIEEE;
    DecodePacked(buffer, MsgTypeErr, 0, Sender.FileNotFound);
  }
}

=== FILE: wrappers.dfy ===
/** Optional values, used where the Go code returns a value together with an `ok` flag
    or an `error` that callers branch on. */
module Wrappers {

  datatype Option<+T> = None | Some(value: T)
}
